=== FILE: README.md ===
# Packed HDF5 attribute classifications: row bookkeeping in Dafny

`HDF5PackedAttributeClassifications` (pyscm) shows a boolean matrix of
examples × attributes whose rows are spread over several backing HDF5
datasets, 32 or 64 rows packed per word. Rows are deleted by *tombstoning*:
`remove_rows` records them in per-dataset removed lists and shifts the
offset table, but never touches the packed data. `get_column` and `sum_rows`
then have to translate current row numbers back to physical ones.

This project models that bookkeeping as pure functions over an immutable
`Store` record and proves what each operation promises:

- `results.dfy`: the `Result` type, whose errors mirror Python's `IndexError`, `ValueError`, `RuntimeError` and `TypeError`.
- `sorted_sets.dfy`: the list helpers. `sorted(set(...))` is `SortedSet`, `np.sort` is `Sort`, and `Image` is the set of elements at given ranks.
- `offsets.dfy`: the contiguous `[start, stop)` offset table and the linear lookup of `_get_row_dataset`.
- `tombstones.dfy`: what a removed list means. It defines the survivors of a dataset, the counting of tombstones, and numpy boolean-mask filtering.
- `row_mask.dfy`: `build_row_mask`. Words are `seq<bool>` of the mask width, with the most significant bit first. `/` is Python 2 floor division, and a negative word index counts from the end of the list.
- `accumulator.dfy`: `_column_sum_dtype`.
- `packed_store.dfy`: the store, `__init__`, `shape`, `_get_row_dataset`, `remove_rows`, and a corrected `remove_rows`.
- `column.dfy`: the keep-mask and placement logic of `get_column`.
- `sum_rows.dfy`: the front half of `sum_rows`, up to the first data read. It covers sorting, lookup, the deleted-row correction, mask building and skipping datasets with no rows. A corrected version is alongside.
- `findings.dfy`: concrete stores on which the code as written goes wrong.

Three translations of a dataset-relative row index appear (`PackedStore.Mode`):

- `RelativeIndex` is the index used as is. `remove_rows` does this at line 124.
- `DeletedRowOffset` is the single-pass correction of `sum_rows`, lines 178-180.
- `PhysicalIndex` is the intended translation: the physical row that the k-th current row stands for, i.e. the k-th survivor. This is what `get_column` reads.

Every operation is modelled as written, down to the exception it raises, except as listed under "## Left out". The corrected members exist only to state the findings below.

## Model

| member | source | states |
|---|---|---|
| Accumulator.ColumnSumWidth | pyscm/binary_attributes/classifications/hdf5.py:28-38 | The width is 8, 16, 32 or 64. It bounds the row count unless it is 64. Every narrower width is too small for the count. |
| Accumulator.ColumnSumWidthIsLeast | pyscm/binary_attributes/classifications/hdf5.py:28-38 | The chosen width is at most any of 8/16/32/64 whose maximum bounds the count, and its own maximum bounds the count. |
| RowMask.BuildRowMask | pyscm/binary_attributes/classifications/hdf5.py:41-53 | An unsupported width gives ValueError. Otherwise it succeeds iff the width is not 128 and every index designates one of the `ceil(n / width)` words, and the result has exactly that many words. An index outside the words gives an IndexError naming an offending index. With 128-bit words and every index placed, the `"u16"` word type gives TypeError. A bit is set iff some index designates that word and position. |
| RowMask.WordCount | pyscm/binary_attributes/classifications/hdf5.py:45 | For `n <= 0` there are no words. Otherwise the count is the least number of `width`-bit words that hold `n` rows: `n <= count * width` and `(count - 1) * width < n`. |
| RowMask.Slot | pyscm/binary_attributes/classifications/hdf5.py:49-51 | For a non-negative index the slot is `idx // width`. The slot lies in `[0, count)` iff the index lies in `[-count * width, count * width)`, because Python counts a negative list index from the end. |
| RowMask.Position | pyscm/binary_attributes/classifications/hdf5.py:50-51 | The element set is `idx % width`, Python's non-negative remainder, which lies in `[0, width)`. That is bit `width - 1 - idx % width` of the word. |
| RowMask.SetBits | pyscm/binary_attributes/classifications/hdf5.py:48-51 | The loop succeeds iff every index's slot is inside the list. Otherwise IndexError names the first index whose slot is not, and every earlier index is in range. On success the list keeps its length and word width, and a bit is set iff it was set before or some index designates it. |
| RowMask.MaskSelectsExactlyTheIndices | pyscm/binary_attributes/classifications/hdf5.py:155-167 | For non-negative indices, every index lies inside the mask, and the mask selects a row iff the row is one of the indices. |
| RowMask.IndicesBelowCountFit | pyscm/binary_attributes/classifications/hdf5.py:159-165 | Indices in `[0, n)` always fit a mask sized by `n`: the mask is built, except that 128-bit words give TypeError. |
| RowMask.MaskIgnoresOrderAndRepeats | pyscm/binary_attributes/classifications/hdf5.py:162-165 | Two index lists with the same elements give the same result, whatever their order and repetitions. |
| RowMask.EmptySelectionIsAllZero | pyscm/binary_attributes/classifications/hdf5.py:159-160 | With no indices, the mask is `ceil(n / width)` all-zero words of full width; 128-bit words give TypeError. |
| RowMask.WordValueBits | pyscm/binary_attributes/classifications/hdf5.py:164-165 | Element `width-1-b` of a word is bit `b` of its unsigned value (most significant bit first), and the value fits in `width` bits. |
| Offsets.Sum | pyscm/binary_attributes/classifications/hdf5.py:60 | `sum(n_rows)`. It has no contract of its own; `Offsets.Stops` and `Offsets.StopsArePrefixSums` tie it to the offset table. |
| Offsets.Stops | pyscm/binary_attributes/classifications/hdf5.py:78-84 | There is one stop per count, and the last stop is the sum of all the counts. |
| Offsets.Starts | pyscm/binary_attributes/classifications/hdf5.py:86-91 | There is one start per count. `Offsets.OffsetTableContiguous` proves that the first start is 0, that each later start is the previous stop, and that each range spans its count. |
| Offsets.StopsArePrefixSums | pyscm/binary_attributes/classifications/hdf5.py:78-84 | `stop[i]` is the sum of the first `i+1` row counts. |
| Offsets.OffsetTableContiguous | pyscm/binary_attributes/classifications/hdf5.py:78-91 | The constructed table has `start[0] = 0`, `start[i] = stop[i-1]` and `stop[i] = start[i] + n_rows[i]`. |
| Offsets.ContiguousOffsetsArePrefixSums | pyscm/binary_attributes/classifications/hdf5.py:135-136 | Any contiguous table has `start[i]` and `stop[i]` equal to prefix sums of the counts. |
| Offsets.ContiguousTableIsUnique | pyscm/binary_attributes/classifications/hdf5.py:78-91 | The contiguity equations determine the table: it is the one the constructor builds. |
| Offsets.RangesOrdered | pyscm/binary_attributes/classifications/hdf5.py:78-91 | With non-negative counts, an earlier range ends no later than a later one starts. |
| Offsets.LocateFrom | pyscm/binary_attributes/classifications/hdf5.py:230-233 | The scan from range `i` returns -1 or some `r >= i` whose range holds the row, with no holding range between `i` and `r`. It returns -1 only when no range from `i` on holds the row. |
| Offsets.Locate | pyscm/binary_attributes/classifications/hdf5.py:228-233 | The lookup returns the first range holding the row, or -1 exactly when no range holds it. |
| Offsets.LocateIsUnique | pyscm/binary_attributes/classifications/hdf5.py:228-233 | On a contiguous table with non-negative counts, any range holding the row is the one returned. |
| Offsets.LocateFailsExactlyOutside | pyscm/binary_attributes/classifications/hdf5.py:228-233 | On a contiguous table with non-negative counts, the lookup returns -1 iff `row < 0` or `row >= Σ n_rows`. |
| Tombstones.Survivors | pyscm/binary_attributes/classifications/hdf5.py:109-113 | The survivors are strictly ascending physical rows below the declared count, and none is tombstoned. |
| Tombstones.SurvivorSet | pyscm/binary_attributes/classifications/hdf5.py:109-113 | The survivors are exactly the rows in `[0, n)` that are not tombstoned. |
| Tombstones.SurvivorCountIsRowCount | pyscm/binary_attributes/classifications/hdf5.py:133-134 | For a valid removed list, the number of survivors is `initial_n_rows - len(removed)`: the count `remove_rows` stores. |
| Tombstones.SurvivorsWithoutTombstones | pyscm/binary_attributes/classifications/hdf5.py:109-113 | With no tombstones, every row survives in place. |
| Tombstones.SurvivorRank | pyscm/binary_attributes/classifications/hdf5.py:109-113 | The survivors up to and including the k-th one number exactly k+1. |
| Tombstones.CountAtMost | pyscm/binary_attributes/classifications/hdf5.py:179 | The count is at most the number of tombstones. It is all of them when every tombstone is `<= v`, and 0 when none is. |
| Tombstones.CountAtMostIsTombstonesBelow | pyscm/binary_attributes/classifications/hdf5.py:179 | The offset of line 179 (removed entries `<= v`) is the number of distinct tombstones in `[0, v]`. |
| Tombstones.PhysicalRowIsFixpoint | pyscm/binary_attributes/classifications/hdf5.py:178-180 | The true physical row `p` of current row `k` satisfies `p = k + #tombstones <= p`. Line 179 evaluates the count at `k` instead of `p`. |
| Tombstones.Filter | pyscm/binary_attributes/classifications/hdf5.py:113 | Boolean indexing keeps at most as many entries as it is given, and an all-true mask keeps the whole column. |
| Tombstones.FilterTakesKept | pyscm/binary_attributes/classifications/hdf5.py:113 | Boolean-mask indexing keeps, in order, the values at the positions where the mask is true. |
| Tombstones.KeptIsSurvivors | pyscm/binary_attributes/classifications/hdf5.py:109-111 | A mask that is true exactly below the declared count and off the removed list keeps exactly the survivors, in order. |
| SortedSets.SortedSet | pyscm/binary_attributes/classifications/hdf5.py:133 | `sorted(set(xs))` is strictly ascending with the elements of `xs`. |
| SortedSets.SortedSetIsCanonical | pyscm/binary_attributes/classifications/hdf5.py:133 | Inputs with the same elements give the same sorted set. |
| SortedSets.StrictlySortedUnique | pyscm/binary_attributes/classifications/hdf5.py:133 | A strictly ascending list is determined by its elements. |
| SortedSets.Sort | pyscm/binary_attributes/classifications/hdf5.py:171 | `np.sort` returns an ascending permutation of its input. |
| PackedStore.Create | pyscm/binary_attributes/classifications/hdf5.py:56-104 | No datasets give IndexError, mismatched datasets give RuntimeError, too few counts give IndexError at the first missing one, and an unsupported word type gives ValueError (in that order). Otherwise the store is valid, with no tombstones, current counts equal to declared ones, pack size 32 or 64 from the word type, and total `Σ n_rows`. |
| PackedStore.Shape | pyscm/binary_attributes/classifications/hdf5.py:144-146 | `shape` is `(Σ n_rows, n_cols)` and its row count is non-negative. |
| PackedStore.RowDataset | pyscm/binary_attributes/classifications/hdf5.py:228-233 | A non-negative answer names a dataset whose current range holds the row. |
| PackedStore.RowDatasetIsUniqueRange | pyscm/binary_attributes/classifications/hdf5.py:228-233 | On a valid store, the dataset is the unique one whose range holds the row, and -1 is returned iff `row < 0` or `row >= Σ n_rows[..len(datasets)]`, which is `shape[0]` when there is one count per dataset. |
| PackedStore.RangeWithinShape | pyscm/binary_attributes/classifications/hdf5.py:135-137 | Every dataset range lies within `[0, shape[0]]`. |
| PackedStore.ValidContiguous | pyscm/binary_attributes/classifications/hdf5.py:135-137 | In a valid store, the offset table is contiguous over the current counts. |
| PackedStore.DatasetFacts | pyscm/binary_attributes/classifications/hdf5.py:133-134 | In a valid store, each removed list is ascending without repeats and below the declared count, and the current count is declared count minus tombstones, which equals the number of survivors. |
| PackedStore.RowIndex | pyscm/binary_attributes/classifications/hdf5.py:178-180 | The relative translation stays below the declared count. The deleted-row correction adds between 0 and `len(removed)`. The physical translation names a non-tombstoned row below the declared count. |
| PackedStore.Translate | pyscm/binary_attributes/classifications/hdf5.py:178-180 | There is one translated index per relative index. Each is `RowIndex` in the chosen mode: the index as is (line 124), with the deleted-row offset (lines 178-180), or the physical survivor. |
| PackedStore.PhysicalRow | pyscm/binary_attributes/classifications/hdf5.py:109-113 | The physical row that a current row stands for lies below its dataset's declared count and is not tombstoned. |
| PackedStore.FirstUnlocatable | pyscm/binary_attributes/classifications/hdf5.py:119-123 | This is the position of the first row the lookup rejects; all earlier rows are located. |
| PackedStore.Collect | pyscm/binary_attributes/classifications/hdf5.py:118-124 | The validation loop succeeds iff every row is located, and otherwise raises IndexError naming the first unlocatable row in the given order. |
| PackedStore.CollectedRelatives | pyscm/binary_attributes/classifications/hdf5.py:124 | Dataset `i` collects exactly `row - start[i]` for the rows it holds, each below its current count. |
| PackedStore.Merge | pyscm/binary_attributes/classifications/hdf5.py:132-133 | The new removed list is strictly ascending and holds the union of the old list and the new indices. Without new indices the old list is kept. |
| PackedStore.MergeValid | pyscm/binary_attributes/classifications/hdf5.py:133-134 | Merging indices below the declared count keeps the list valid and grows it by the number of new distinct indices. |
| PackedStore.Apply | pyscm/binary_attributes/classifications/hdf5.py:131-137 | The update loop yields a valid store whose datasets, declared counts, columns and pack size are unchanged. Each removed list is the merge and each count drops by the number of newly tombstoned rows. |
| PackedStore.RemoveRows | pyscm/binary_attributes/classifications/hdf5.py:116-137 | It fails iff some row cannot be located, with IndexError for the first such row. A failure carries no store, so nothing has changed. Success yields a valid store with the same datasets and declared counts. |
| PackedStore.RemoveRowsRecordsRelatives | pyscm/binary_attributes/classifications/hdf5.py:124-134 | After success, each dataset's tombstones are its old ones plus `row - start[i]` of the rows it held. Its count drops by the number of those not already tombstoned. A dataset that held none keeps its list and count. |
| PackedStore.TranslatePhysical | pyscm/binary_attributes/classifications/hdf5.py:111-113 | Physical translation of relative indices names exactly the survivors of those ranks. |
| PackedStore.RemoveRowsIntended | pyscm/binary_attributes/classifications/hdf5.py:116-137 | The corrected removal has the same failure behaviour and validity as `remove_rows`. |
| PackedStore.IntendedSurvivors | pyscm/binary_attributes/classifications/hdf5.py:131-134 | For one dataset, the corrected merge removes exactly the named physical rows from the survivors. |
| PackedStore.IntendedCount | pyscm/binary_attributes/classifications/hdf5.py:134 | For one dataset, the corrected count drops by the number of distinct named rows. |
| PackedStore.RemoveRowsIntendedRemovesNamedRows | pyscm/binary_attributes/classifications/hdf5.py:116-137 | After the corrected removal, each dataset's survivors are the old ones minus the physical rows the named current rows stood for, and its count drops by the number of distinct named rows. |
| PackedStore.RemoveRowsAgreeWithoutTombstones | pyscm/binary_attributes/classifications/hdf5.py:124 | On a store without tombstones, `remove_rows` as written and corrected coincide. |
| Column.ClearFrom | pyscm/binary_attributes/classifications/hdf5.py:110 | `mask[from:] = False` keeps the length and clears exactly the positions `>= from`. |
| Column.ClearAt | pyscm/binary_attributes/classifications/hdf5.py:111 | `mask[idxs] = False` succeeds iff every index is in `[-len, len)`, and otherwise raises IndexError for an offending index. It clears exactly the positions an index names, counting negatives from the end. |
| Column.KeepMask | pyscm/binary_attributes/classifications/hdf5.py:109-111 | The keep-mask builds iff every tombstone is a valid index into the stored rows. It then has the stored length and is true exactly below the declared count and off the removed list. |
| Column.KeepMaskKeepsSurvivors | pyscm/binary_attributes/classifications/hdf5.py:109-113 | For a valid removed list within storage, the mask is built and keeps exactly the survivors, in order. |
| Column.Assign | pyscm/binary_attributes/classifications/hdf5.py:112-113 | Slice assignment succeeds iff the lengths match or one value is broadcast, and otherwise gives ValueError. It writes inside the slice and leaves everything else unchanged. |
| Column.GetColumn | pyscm/binary_attributes/classifications/hdf5.py:106-114 | A successful result has length `shape[0]`. |
| Column.StoredBits | pyscm/binary_attributes/classifications/hdf5.py:109 | The keep-mask length `dataset.shape[0] * dataset_pack_size` is the packed row count times the store's pack size. |
| Column.Read | pyscm/binary_attributes/classifications/hdf5.py:109-113 | A successful read needs an unpacked column of exactly the stored bit count, and it keeps at most that many values. When every tombstone lies within the stored bits, it succeeds iff the column has that length; otherwise it is the IndexError of numpy boolean indexing. `Column.DatasetValues` fixes the contents. |
| Column.Place | pyscm/binary_attributes/classifications/hdf5.py:107-113 | After the first `k` datasets, the partial column has `shape[0]` entries. `Column.PlaceIsReading` fixes its contents. |
| Column.DatasetValues | pyscm/binary_attributes/classifications/hdf5.py:109-113 | The values read from dataset `i` are its `n_rows[i]` survivors' bits: value `k` is the bit at the k-th survivor. |
| Column.PlaceIsReading | pyscm/binary_attributes/classifications/hdf5.py:107-114 | After the first `k` datasets, the result equals the reference column that reads each row of those datasets at its physical row, with zeros elsewhere. |
| Column.GetColumnReadsSurvivors | pyscm/binary_attributes/classifications/hdf5.py:106-114 | When the data covers the stored rows, `get_column` succeeds, and result `p` is the bit of the physical row that current row `p` stands for. |
| SumRows.MaskRows | pyscm/binary_attributes/classifications/hdf5.py:188 | The row count that sizes a dataset's mask lies between its current and its declared row count. It is the current count as written at line 188, and the declared count in the corrected plan. |
| SumRows.MaskCounts | pyscm/binary_attributes/classifications/hdf5.py:187-191 | There is one mask size per dataset, and each is `MaskRows` of that dataset. |
| SumRows.TranslateAll | pyscm/binary_attributes/classifications/hdf5.py:178-182 | There is one translated list per dataset, and each is `Translate` of that dataset's relative indices. |
| SumRows.Masks | pyscm/binary_attributes/classifications/hdf5.py:187-191 | The mask list succeeds iff every non-empty dataset's mask builds. Empty datasets get `[]`, and the others get their built mask. |
| SumRows.Plan | pyscm/binary_attributes/classifications/hdf5.py:149-191 | On success, the accumulator width is `_column_sum_dtype(len(rows))` and every requested row exists. If some row is unknown, the result is IndexError naming the smallest such row. |
| SumRows.SmallestUnknownRow | pyscm/binary_attributes/classifications/hdf5.py:171-185 | The reported row is requested and no dataset holds it; that is, it lies outside `[0, shape[0])` when there is one count per dataset. Every smaller requested row is held by some dataset. |
| SumRows.SortKeepsLocatability | pyscm/binary_attributes/classifications/hdf5.py:171-174 | Sorting does not change whether all rows exist. |
| SumRows.SortKeepsRelatives | pyscm/binary_attributes/classifications/hdf5.py:171-182 | Sorting does not change which relative indices each dataset receives. |
| SumRows.PlanContents | pyscm/binary_attributes/classifications/hdf5.py:173-191 | Dataset `i`'s indices are the translations of the relative indices of the requested rows it holds. They are empty iff it holds none, and otherwise their mask builds. |
| SumRows.PlanMaskSelectsIndices | pyscm/binary_attributes/classifications/hdf5.py:187-191 | A dataset gets a mask iff it holds a requested row. Datasets without one are skipped. The mask selects exactly its indices. |
| SumRows.PhysicalTargetsAreNamed | pyscm/binary_attributes/classifications/hdf5.py:109-113 | The physical translation of a dataset's requested rows is exactly the set of physical rows those current rows stand for. |
| SumRows.PlanSucceedsIffTranslationsFit | pyscm/binary_attributes/classifications/hdf5.py:171-191 | The plan succeeds iff every row exists and every translated row lies within the mask of its dataset. |
| SumRows.SumRowsPlan | pyscm/binary_attributes/classifications/hdf5.py:149-191 | `sum_rows` as written, up to its reads. A successful plan uses the accumulator width of the row count. |
| SumRows.TranslationsFit | pyscm/binary_attributes/classifications/hdf5.py:162-165 | This predicate says every corrected index designates an existing mask word. |
| SumRows.SumRowsAgreeWithoutTombstones | pyscm/binary_attributes/classifications/hdf5.py:178-188 | On a store without tombstones, the plan as written equals the intended plan. |
| SumRows.SumRowsPlanIntended | pyscm/binary_attributes/classifications/hdf5.py:149-191 | The corrected plan: physical translation and masks sized by the declared counts. |
| SumRows.IntendedPlanSucceeds | pyscm/binary_attributes/classifications/hdf5.py:187-191 | The corrected plan never fails when every requested row exists. |
| SumRows.IntendedMaskSelectsNamedRows | pyscm/binary_attributes/classifications/hdf5.py:187-191 | A corrected mask selects exactly the physical rows the requested current rows stand for. |
| SumRows.IntendedPlanCountsEveryRequestedRow | pyscm/binary_attributes/classifications/hdf5.py:171-191 | Under the corrected plan, every requested row is selected at the physical row that `get_column` reads for it (`Column.ReadRow`). |
| Findings.DeletedRowOffsetLandsOnTombstone | pyscm/binary_attributes/classifications/hdf5.py:178-180 | With rows 0 and 1 of 3 tombstoned, current row 0 is corrected to tombstoned physical row 1, while its physical row is 2. |
| Findings.SumRowsCountsTombstonedRow | pyscm/binary_attributes/classifications/hdf5.py:178-191 | On that store, `sum_rows([0])` as written indexes row 1, and the intended plan indexes row 2. |
| Findings.MaskSizedByCurrentCountOverflows | pyscm/binary_attributes/classifications/hdf5.py:187-189 | With row 0 of `32m+1` tombstoned, current row `32m-1` becomes row `32m`. The `m`-word mask sized by the current count cannot hold it, so the plan as written fails, while the intended plan succeeds. |
| Findings.RemoveRowsHidesWrongRow | pyscm/binary_attributes/classifications/hdf5.py:124 | With row 0 of 3 tombstoned, removing current row 1 as written leaves physical row 2 visible. The intended removal leaves physical row 1. |

## Left out

- h5py reads and `_unpack_binary_bytes_from_ints` (lines 113, 215-216) are not modelled. `get_column` takes the unpacked column of each dataset as a parameter `unpacked`. A column whose length differs from the keep-mask gives IndexError, as numpy boolean indexing does. The real unpacking function is not part of this model.
- The popcount, block tiling and accumulation loop of `sum_rows` (lines 193-225) are not modelled. The popcount functions are not part of this model, and the rest is numpy arithmetic and I/O batching. The model stops at the plan (accumulator width, indices, masks); the zero-initialised result of line 151 is not represented.
- `build_row_mask`'s final `np.array(..., dtype="u<width/8>")` conversion (line 53) is modelled only by its outcome: TypeError for 128-bit words, success otherwise. Words stay as bit sequences. The word count is computed exactly as `ceil(n / width)`, without the floating-point `float(n) / width` of line 45 (exact for the counts concerned).
- The block-size handling of the constructor (lines 66-70) is not modelled. It is tied to HDF5 chunking, and it leaves the attributes unset when an override is passed. Without an override, an unchunked dataset has `chunks` equal to `None`, so `self.datasets[0].chunks[0]` at line 68 raises TypeError before the column and word-type checks. `PackedStore.Create` does not model that TypeError.
- The column argument of `get_column` is not range-checked in the model; the unpacked column is given directly.
- `HDF5UnpackedAttributeClassifications` (lines 236-237) is an empty stub and is not modelled.
- The debug `print` (line 181) and the `__main__` demo (lines 239-266) are not modelled.
- Declared row counts are `nat`. A negative count passed to the constructor is not modelled.
- SumRows.Plan: duplicate requested rows set the same mask bit, so a duplicated row is selected once. The model states this set semantics (`PlanMaskSelectsIndices`) and makes no claim about multiset sums.
- PackedStore.Apply: recomputes every count from `initial - len(removed)`. The source only does so for datasets that received rows. The two agree on every valid store, because a valid store already satisfies that equation.
- Idempotence of repeated `remove_rows` is not claimed. `Findings.RemoveRowsHidesWrongRow` shows that a second call names different physical rows.
- `sum_rows` agreeing with `get_column` is proved only for the corrected plan (`IntendedPlanCountsEveryRequestedRow`). It holds for the plan as written only on stores without tombstones (`SumRowsAgreeWithoutTombstones`).

## Findings

| source | as written | input that shows it | evidently intended | confidence | as-written member | corrected member |
|---|---|---|---|---|---|---|
| pyscm/binary_attributes/classifications/hdf5.py:179 | Adds the number of tombstones `<= rel` once, so the result can itself be a tombstone. | 3 rows, removed `[0, 1]`, current row 0 gives physical row 1 (tombstoned); the true row is 2. | Translate to the rel-th survivor, i.e. iterate the correction to its fixpoint. | high, not executed | Findings.SumRowsCountsTombstonedRow | SumRows.IntendedPlanCountsEveryRequestedRow |
| pyscm/binary_attributes/classifications/hdf5.py:188 | The mask is sized by the current row count, while corrected indices reach up to the declared count. | 33 rows, removed `[0]`, 32-bit words, `sum_rows([31])`: row 32 needs a second word, and the mask has one, so IndexError. | Size the mask by `dataset_initial_n_rows[i]`. | high, not executed | Findings.MaskSizedByCurrentCountOverflows | SumRows.IntendedPlanSucceeds |
| pyscm/binary_attributes/classifications/hdf5.py:124 | Stores `row - start`, a post-deletion index, in a list that `get_column` reads as physical rows. | 3 rows, removed `[0]`, `remove_rows([1])`: physical row 1 is tombstoned, and row 2, the one named, stays visible. | Translate to the physical row before recording it. | high, not executed | Findings.RemoveRowsHidesWrongRow | PackedStore.RemoveRowsIntendedRemovesNamedRows |

=== FILE: accumulator.dfy ===
/** `_column_sum_dtype`: the unsigned integer width of the per-column sums of
    `sum_rows`, chosen from the number of rows summed. */
module Accumulator {

  /** The largest value of an unsigned integer of the given width (numpy's `iinfo(...).max`). */
  function UnsignedMax(width: nat): nat
    requires width == 8 || width == 16 || width == 32 || width == 64
  {
    if width == 8 then 0xFF
    else if width == 16 then 0xFFFF
    else if width == 32 then 0xFFFF_FFFF
    else 0xFFFF_FFFF_FFFF_FFFF
  }

  /** The width of the narrowest of uint8/16/32/64 able to hold `count`, falling
      back to uint64 when even that is too narrow. */
  function ColumnSumWidth(count: nat): (w: nat)
    ensures w == 8 || w == 16 || w == 32 || w == 64
    ensures count <= UnsignedMax(w) || w == 64
    ensures w > 8 ==> count > UnsignedMax(8)
    ensures w > 16 ==> count > UnsignedMax(16)
    ensures w > 32 ==> count > UnsignedMax(32)
  {
    if count <= 255 then 8
    else if count <= 65535 then 16
    else if count <= 4294967295 then 32
    else 64
  }

  /** The chosen width is the least supported one that bounds the count: no
      narrower supported width would do. */
  lemma ColumnSumWidthIsLeast(count: nat, v: nat)
    requires v == 8 || v == 16 || v == 32 || v == 64
    requires count <= UnsignedMax(v)
    ensures ColumnSumWidth(count) <= v
    ensures count <= UnsignedMax(ColumnSumWidth(count))
  {
  }
}

=== FILE: column.dfy ===
/** `get_column`: one column of the logical matrix, assembled dataset by
    dataset. Each dataset's column is unpacked to one bit per physical row,
    filtered through a keep-mask (false beyond the declared row count and at
    every tombstone) and written into the dataset's current range of the result. */
module Column {
  import opened Results
  import opened SortedSets
  import opened Offsets
  import opened Tombstones
  import opened PackedStore

  /** numpy's `m[from:] = False`: clears every position at or after `from`. */
  function ClearFrom(m: seq<bool>, from: nat): (r: seq<bool>)
    ensures |r| == |m|
    ensures forall j :: 0 <= j < |m| ==> (r[j] <==> m[j] && j < from)
  {
    if from >= |m| then m else m[..from] + seq(|m| - from, _ => false)
  }

  /** Position `j` of a sequence of length `n` is named by `idxs`, directly or
      counting from the end. */
  predicate Struck(idxs: seq<int>, n: int, j: int) {
    j in idxs || j - n in idxs
  }

  /** numpy's `m[idxs] = False` with a list of integer indices: a negative index
      counts from the end, and one outside `[-len(m), len(m))` raises `IndexError`. */
  function ClearAt(m: seq<bool>, idxs: seq<int>): (r: Result<seq<bool>>)
    ensures r.Ok? <==> forall k :: 0 <= k < |idxs| ==> -|m| <= idxs[k] < |m|
    ensures r.Err? ==> exists k :: 0 <= k < |idxs| && !(-|m| <= idxs[k] < |m|) && r.error == IndexError(idxs[k])
    ensures r.Ok? ==> |r.value| == |m|
    ensures r.Ok? ==> forall j :: 0 <= j < |m| ==> (r.value[j] <==> m[j] && !Struck(idxs, |m|, j))
  {
    if idxs == [] then Ok(m)
    else
      var init := idxs[..|idxs| - 1];
      var idx := idxs[|idxs| - 1];
      var rec := ClearAt(m, init);
      if rec.Err? then rec
      else if idx < -|m| || idx >= |m| then
        Err(IndexError(idx))
      else
        var p := rec.value;
        assert idxs == init + [idx];
        ClearOne(m, init, idx, p);
        Ok(p[if idx < 0 then idx + |m| else idx := false])
  }

  lemma ClearOne(m: seq<bool>, init: seq<int>, idx: int, p: seq<bool>)
    requires -|m| <= idx < |m| && |p| == |m|
    requires forall j :: 0 <= j < |m| ==> (p[j] <==> m[j] && !Struck(init, |m|, j))
    ensures var r := p[if idx < 0 then idx + |m| else idx := false];
            forall j :: 0 <= j < |m| ==> (r[j] <==> m[j] && !Struck(init + [idx], |m|, j))
  {
    var at := if idx < 0 then idx + |m| else idx;
    var r := p[at := false];
    forall j | 0 <= j < |m|
      ensures r[j] <==> m[j] && !Struck(init + [idx], |m|, j)
    {
      assert j in init + [idx] <==> j in init || j == idx;
      assert j - |m| in init + [idx] <==> j - |m| in init || j - |m| == idx;
      if j != at {
        assert r[j] == p[j];
      }
    }
  }

  /** The row mask of `get_column` for a dataset column of `size` unpacked bits. */
  function KeepMask(size: nat, initial: nat, removed: seq<int>): (r: Result<seq<bool>>)
    ensures r.Ok? <==> forall k :: 0 <= k < |removed| ==> -(size as int) <= removed[k] < size
    ensures r.Ok? ==> |r.value| == size
    ensures r.Ok? ==> forall j :: 0 <= j < size ==>
                        (r.value[j] <==> j < initial && !Struck(removed, size, j))
  {
    var ones: seq<bool> := seq(size, _ => true);
    var m := ClearFrom(ones, initial);
    assert forall j :: 0 <= j < size ==> (m[j] <==> j < initial);
    ClearAt(m, removed)
  }

  /** When the declared rows fit in the unpacked column, the mask keeps exactly
      the dataset's survivors. */
  lemma KeepMaskKeepsSurvivors(size: nat, initial: nat, removed: seq<int>)
    requires TombstonesValid(removed, initial) && initial <= size
    ensures KeepMask(size, initial, removed).Ok?
    ensures Kept(KeepMask(size, initial, removed).value) == Survivors(initial, removed)
  {
    var m := KeepMask(size, initial, removed).value;
    forall j | 0 <= j < size
      ensures m[j] <==> j < initial && j !in removed
    {
      assert j - size < 0;
    }
    KeptIsSurvivors(m, initial, removed);
  }

  /** numpy's slice assignment `acc[lo:hi] = vals`: the values must fill the slice
      exactly or be a single value that is broadcast, else `ValueError`. */
  function Assign(acc: seq<bool>, lo: int, hi: int, vals: seq<bool>): (r: Result<seq<bool>>)
    requires 0 <= lo <= hi <= |acc|
    ensures r.Ok? <==> |vals| == hi - lo || |vals| == 1
    ensures r.Err? ==> r.error == ValueError
    ensures r.Ok? ==> |r.value| == |acc|
    ensures r.Ok? ==> forall j :: 0 <= j < |acc| && !(lo <= j < hi) ==> r.value[j] == acc[j]
    ensures r.Ok? ==> forall j :: lo <= j < hi ==>
                        r.value[j] == if |vals| == hi - lo then vals[j - lo] else vals[0]
  {
    if |vals| == hi - lo then Ok(acc[..lo] + vals + acc[hi..])
    else if |vals| == 1 then Ok(acc[..lo] + seq(hi - lo, _ => vals[0]) + acc[hi..])
    else Err(ValueError)
  }

  /** The first `k` datasets written into a zero column of `shape[0]` entries. */
  function Place(s: Store, unpacked: seq<seq<bool>>, k: nat): (r: Result<seq<bool>>)
    requires Valid(s) && |unpacked| == |s.datasets| && k <= |s.datasets|
    ensures r.Ok? ==> |r.value| == s.totalRows
  {
    if k == 0 then
      Ok(seq(Shape(s).0, _ => false))
    else
      var i := k - 1;
      RangeWithinShape(s, i);
      var acc :- Place(s, unpacked, i);
      assert 0 <= s.start[i] <= s.stop[i] <= |acc|;
      var vals :- Read(s, unpacked, i);
      Assign(acc, s.start[i], s.stop[i], vals)
  }

  /** `dataset.shape[0] * dataset_pack_size`: the number of bits dataset `i` stores per column. */
  function StoredBits(s: Store, i: int): (r: nat)
    requires Valid(s) && 0 <= i < |s.datasets|
    ensures r == s.datasets[i].packedRows * s.packSize
  {
    if s.packSize == 32 then s.datasets[i].packedRows * 32 else s.datasets[i].packedRows * 64
  }

  /** `_unpack_binary_bytes_from_ints(dataset[:, column])[row_mask]` for dataset `i`:
      the mask has one entry per stored bit, and a boolean index whose length
      differs from the unpacked column's raises `IndexError`. */
  function Read(s: Store, unpacked: seq<seq<bool>>, i: int): (r: Result<seq<bool>>)
    requires Valid(s) && |unpacked| == |s.datasets| && 0 <= i < |s.datasets|
    ensures r.Ok? ==> |unpacked[i]| == StoredBits(s, i) && |r.value| <= |unpacked[i]|
    ensures (forall k :: 0 <= k < |s.removed[i]| ==> -(StoredBits(s, i) as int) <= s.removed[i][k] < StoredBits(s, i)) ==>
              (r.Ok? <==> |unpacked[i]| == StoredBits(s, i))
  {
    var size := StoredBits(s, i);
    var mask :- KeepMask(size, s.initialRows[i], s.removed[i]);
    if |unpacked[i]| != size then Err(IndexError(|unpacked[i]|))
    else Ok(Filter(unpacked[i], mask))
  }

  /** `get_column`, given each dataset's column already unpacked to bits. */
  function GetColumn(s: Store, unpacked: seq<seq<bool>>): (r: Result<seq<bool>>)
    requires Valid(s) && |unpacked| == |s.datasets|
    ensures r.Ok? ==> |r.value| == Shape(s).0
  {
    Place(s, unpacked, |s.datasets|)
  }

  /** Dataset `i`'s column unpacks to one bit per stored word bit, and its
      declared rows fit in them. */
  predicate ColumnFits(s: Store, unpacked: seq<seq<bool>>, i: int)
    requires Valid(s) && |unpacked| == |s.datasets| && 0 <= i < |s.datasets|
  {
    && |unpacked[i]| == StoredBits(s, i)
    && s.initialRows[i] <= |unpacked[i]|
  }

  /** Every dataset's column unpacks to its stored bits and its declared rows fit in them. */
  predicate FitsStorage(s: Store, unpacked: seq<seq<bool>>)
    requires Valid(s)
  {
    && |unpacked| == |s.datasets|
    && forall i :: 0 <= i < |s.datasets| ==> ColumnFits(s, unpacked, i)
  }

  /** The values one dataset contributes: its column at its survivors, in physical order. */
  lemma DatasetValues(s: Store, unpacked: seq<seq<bool>>, i: int)
    requires Valid(s) && FitsStorage(s, unpacked) && 0 <= i < |s.datasets|
    ensures s.initialRows[i] <= |unpacked[i]|
    ensures Read(s, unpacked, i).Ok?
    ensures |Read(s, unpacked, i).value| == s.nRows[i]
    ensures forall k :: 0 <= k < s.nRows[i] ==>
              Read(s, unpacked, i).value[k] == unpacked[i][RowIndex(s, i, k, PhysicalIndex)]
  {
    assert ColumnFits(s, unpacked, i);
    DatasetFacts(s, i);
    KeepMaskKeepsSurvivors(|unpacked[i]|, s.initialRows[i], s.removed[i]);
    var mask := KeepMask(|unpacked[i]|, s.initialRows[i], s.removed[i]).value;
    FilterTakesKept(unpacked[i], mask);
  }

  /** A reference reading of current row `p` using only the first `k` datasets:
      locate the row, translate it to the physical row it stands for, and read
      that bit of the dataset's column; a row none of them holds reads as zero. */
  function ReadRow(s: Store, unpacked: seq<seq<bool>>, k: nat, p: int): bool
    requires Valid(s) && FitsStorage(s, unpacked) && k <= |s.datasets|
  {
    var d := RowDataset(s, p);
    if 0 <= d < k then assert ColumnFits(s, unpacked, d); unpacked[d][RowIndex(s, d, p - s.start[d], PhysicalIndex)] else false
  }

  /** The reference column over the first `k` datasets. */
  function Expected(s: Store, unpacked: seq<seq<bool>>, k: nat): (r: seq<bool>)
    requires Valid(s) && FitsStorage(s, unpacked) && k <= |s.datasets|
    ensures |r| == s.totalRows
  {
    seq(Shape(s).0, p requires 0 <= p < Shape(s).0 => ReadRow(s, unpacked, k, p))
  }

  /** Writing dataset `k - 1`'s values into its range turns the reference column
      over `k - 1` datasets into the one over `k`. */
  lemma PlaceStep(s: Store, unpacked: seq<seq<bool>>, k: nat, vals: seq<bool>)
    requires Valid(s) && FitsStorage(s, unpacked) && 0 < k <= |s.datasets|
    requires |vals| == s.nRows[k - 1] && s.initialRows[k - 1] <= |unpacked[k - 1]|
    requires forall j :: 0 <= j < |vals| ==> vals[j] == unpacked[k - 1][RowIndex(s, k - 1, j, PhysicalIndex)]
    requires 0 <= s.start[k - 1] <= s.stop[k - 1] <= s.totalRows
    requires Assign(Expected(s, unpacked, k - 1), s.start[k - 1], s.stop[k - 1], vals).Ok?
    ensures Assign(Expected(s, unpacked, k - 1), s.start[k - 1], s.stop[k - 1], vals).value
            == Expected(s, unpacked, k)
  {
    var i := k - 1;
    var acc := Expected(s, unpacked, i);
    var r := Assign(acc, s.start[i], s.stop[i], vals).value;
    var e := Expected(s, unpacked, k);
    forall p | 0 <= p < |r|
      ensures r[p] == e[p]
    {
      ReadRowStep(s, unpacked, k, p);
      if s.start[i] <= p < s.stop[i] {
        assert r[p] == vals[p - s.start[i]];
      } else {
        assert r[p] == acc[p];
      }
    }
  }

  /** Admitting dataset `k - 1` changes the reference reading only inside its range,
      where it reads that dataset at the physical row. */
  lemma ReadRowStep(s: Store, unpacked: seq<seq<bool>>, k: nat, p: int)
    requires Valid(s) && FitsStorage(s, unpacked) && 0 < k <= |s.datasets|
    ensures s.start[k - 1] <= p < s.stop[k - 1] ==>
              0 <= p - s.start[k - 1] < s.nRows[k - 1] && s.initialRows[k - 1] <= |unpacked[k - 1]|
              && ReadRow(s, unpacked, k, p)
                 == unpacked[k - 1][RowIndex(s, k - 1, p - s.start[k - 1], PhysicalIndex)]
    ensures !(s.start[k - 1] <= p < s.stop[k - 1]) ==>
              ReadRow(s, unpacked, k, p) == ReadRow(s, unpacked, k - 1, p)
  {
    RowDatasetIsUniqueRange(s, p);
    assert ColumnFits(s, unpacked, k - 1);
  }

  /** Writing the first `k` datasets yields the reference column over them. */
  lemma {:induction false} PlaceIsReading(s: Store, unpacked: seq<seq<bool>>, k: nat)
    requires Valid(s) && FitsStorage(s, unpacked) && k <= |s.datasets|
    ensures Place(s, unpacked, k) == Ok(Expected(s, unpacked, k))
  {
    if k == 0 {
      assert Place(s, unpacked, 0).value == Expected(s, unpacked, 0);
    } else {
      var i := k - 1;
      PlaceIsReading(s, unpacked, i);
      DatasetValues(s, unpacked, i);
      RangeWithinShape(s, i);
      RangeLength(s, i);
      var vals := Read(s, unpacked, i).value;
      PlaceUnfold(s, unpacked, k, Expected(s, unpacked, i), vals);
      PlaceStep(s, unpacked, k, vals);
    }
  }

  /** One step of `Place`: once the first `k - 1` datasets are written and
      dataset `k - 1` is read, the result is the slice assignment of its values. */
  lemma PlaceUnfold(s: Store, unpacked: seq<seq<bool>>, k: nat, acc: seq<bool>, vals: seq<bool>)
    requires Valid(s) && |unpacked| == |s.datasets| && 0 < k <= |s.datasets|
    requires Place(s, unpacked, k - 1) == Ok(acc)
    requires Read(s, unpacked, k - 1) == Ok(vals)
    requires 0 <= s.start[k - 1] <= s.stop[k - 1] <= |acc|
    ensures Place(s, unpacked, k) == Assign(acc, s.start[k - 1], s.stop[k - 1], vals)
  {
  }

  /** `get_column` on a store whose declared rows fit their storage reads every
      current row `p` at the physical row it stands for in the dataset that holds
      it: entry `p` is dataset `d`'s bit at row `RowIndex(p - start[d], PhysicalIndex)`
      where `d` holds `p`, and zero where no dataset does. */
  lemma GetColumnReadsSurvivors(s: Store, unpacked: seq<seq<bool>>)
    requires Valid(s) && FitsStorage(s, unpacked)
    ensures GetColumn(s, unpacked).Ok?
    ensures forall p :: 0 <= p < |GetColumn(s, unpacked).value| ==>
              GetColumn(s, unpacked).value[p] == ReadRow(s, unpacked, |s.datasets|, p)
  {
    PlaceIsReading(s, unpacked, |s.datasets|);
  }
}

=== FILE: findings.dfy ===
/** Concrete stores on which the index translation as written goes wrong, each
    next to the intended behaviour on the same input. */
module Findings {
  import opened Results
  import opened SortedSets
  import opened Offsets
  import opened Tombstones
  import opened RowMask
  import opened PackedStore
  import opened SumRows

  /** A store over one 32-bit packed dataset with one column, `initial` declared
      rows and the tombstones `removed`. */
  function SingleDataset(packedRows: nat, initial: nat, removed: seq<int>): Store {
    var n := initial - |removed|;
    Store([Dataset(packedRows, 1, UInt32)], [initial], [n], [removed], [0], [n], n, 1, 32)
  }

  lemma SingleDatasetValid(packedRows: nat, initial: nat, removed: seq<int>)
    requires TombstonesValid(removed, initial) && |removed| <= initial
    ensures Valid(SingleDataset(packedRows, initial, removed))
  {
    var s := SingleDataset(packedRows, initial, removed);
    assert DatasetValid(s, 0);
    assert RangeValid(s, 0);
    assert Sum(s.nRows) == Sum([]) + s.nRows[0];
  }

  /** Global row `row` of a single-dataset store lies in its only dataset. */
  lemma SingleDatasetHolds(packedRows: nat, initial: nat, removed: seq<int>, row: int)
    requires TombstonesValid(removed, initial) && |removed| <= initial
    requires 0 <= row < initial - |removed|
    ensures Valid(SingleDataset(packedRows, initial, removed))
    ensures RowDataset(SingleDataset(packedRows, initial, removed), row) == 0
    ensures Relatives(SingleDataset(packedRows, initial, removed), [row], 0) == {row}
  {
    SingleDatasetValid(packedRows, initial, removed);
    RowDatasetIsUniqueRange(SingleDataset(packedRows, initial, removed), row);
  }

  /** The deleted-row correction of `sum_rows`: of three rows, 0 and 1 are
      tombstoned, so current row 0 is physical row 2. Counting the one tombstone
      at or below 0 gives physical row 1, itself a tombstone; a second pass would
      have skipped it too. */
  lemma DeletedRowOffsetLandsOnTombstone()
    ensures var s := SingleDataset(1, 3, [0, 1]);
            && Valid(s)
            && RowIndex(s, 0, 0, DeletedRowOffset) == 1
            && 1 in s.removed[0]
            && RowIndex(s, 0, 0, PhysicalIndex) == 2
  {
    var s := SingleDataset(1, 3, [0, 1]);
    SingleDatasetValid(1, 3, [0, 1]);
    assert CountAtMost([0, 1], 0) == CountAtMost([0], 0) + 0;
    assert CountAtMost([0], 0) == CountAtMost([], 0) + 1;
    assert Survivors(3, [0, 1]) == [2] by {
      assert Survivors(0, [0, 1]) == [];
      assert Survivors(1, [0, 1]) == [];
      assert Survivors(2, [0, 1]) == [];
    }
  }

  /** On that store `sum_rows([0])` as written counts tombstoned physical row 1;
      the intended plan counts physical row 2. */
  lemma SumRowsCountsTombstonedRow()
    ensures var s := SingleDataset(1, 3, [0, 1]);
            && Valid(s)
            && SumRowsPlan(s, [0]).Ok?
            && Elems(SumRowsPlan(s, [0]).value.indices[0]) == {1}
            && SumRowsPlanIntended(s, [0]).Ok?
            && Elems(SumRowsPlanIntended(s, [0]).value.indices[0]) == {2}
  {
    SingleDatasetHolds(1, 3, [0, 1], 0);
    DeletedRowOffsetLandsOnTombstone();
    PlanOfOneRow(SingleDataset(1, 3, [0, 1]), 0);
  }

  /** The plan for a single requested row held by the only dataset of a small
      32-bit store indexes exactly that row's translation. */
  lemma PlanOfOneRow(s: Store, row: int)
    requires Valid(s) && |s.datasets| == 1 && s.packSize == 32
    requires 0 < s.nRows[0] && s.initialRows[0] <= 32
    requires RowDataset(s, row) == 0 && Relatives(s, [row], 0) == {row}
    ensures SumRowsPlan(s, [row]).Ok?
    ensures Elems(SumRowsPlan(s, [row]).value.indices[0]) == {RowIndex(s, 0, row, DeletedRowOffset)}
    ensures SumRowsPlanIntended(s, [row]).Ok?
    ensures Elems(SumRowsPlanIntended(s, [row]).value.indices[0]) == {RowIndex(s, 0, row, PhysicalIndex)}
  {
    assert AllLocatable(s, [row]);
    assert s.start[0] == 0 by { assert RangeValid(s, 0); }
    IntendedPlanSucceeds(s, [row]);
    SumRowsPlanOkOnSmallIndices(s, [row]);
    PlanContents(s, [row], PhysicalIndex, 0);
    PlanContents(s, [row], DeletedRowOffset, 0);
    TargetsOfOne(s, 0, row, PhysicalIndex);
    TargetsOfOne(s, 0, row, DeletedRowOffset);
  }

  lemma TargetsOfOne(s: Store, i: int, rel: int, mode: Mode)
    requires Valid(s) && 0 <= i < |s.datasets| && 0 <= rel < s.nRows[i]
    ensures Targets(s, i, {rel}, mode) == {RowIndex(s, i, rel, mode)}
  {
  }

  /** On a single 32-bit dataset whose tombstones all lie among its rows, the
      plan as written succeeds when no corrected index reaches the next multiple
      of 32 above the current count. */
  lemma SumRowsPlanOkOnSmallIndices(s: Store, rows: seq<int>)
    requires Valid(s) && |s.datasets| == 1 && s.packSize == 32
    requires AllLocatable(s, rows)
    requires 0 < s.nRows[0] && s.initialRows[0] <= 32
    ensures SumRowsPlan(s, rows).Ok?
  {
    var sorted := Sort(rows);
    SortKeepsLocatability(s, rows);
    var rel := Collect(s, sorted).value;
    CollectedRelatives(s, sorted);
    SmallIndicesFit(s, rel[0]);
  }

  lemma SmallIndicesFit(s: Store, rels: seq<int>)
    requires Valid(s) && |s.datasets| == 1 && s.packSize == 32
    requires 0 < s.nRows[0] && s.initialRows[0] <= 32
    requires forall k :: 0 <= k < |rels| ==> 0 <= rels[k] < s.nRows[0]
    ensures forall k :: 0 <= k < |rels| ==>
              InRange(Translate(s, 0, rels, DeletedRowOffset)[k], 32, WordCount(s.nRows[0], 32))
  {
    var idx := Translate(s, 0, rels, DeletedRowOffset);
    DatasetFacts(s, 0);
    forall k | 0 <= k < |rels|
      ensures InRange(idx[k], 32, WordCount(s.nRows[0], 32))
    {
      assert 0 <= idx[k] < 32;
    }
  }

  /** The mask sizing of `sum_rows`: a dataset of `32 * m + 1` rows (`m + 1`
      words per column) whose row 0 is tombstoned, so current row `32 * m - 1`
      is physical row `32 * m`.
      The mask is sized by the `32 * m` current rows, `m` words, and setting the
      bit of row `32 * m` fails with IndexError; sized by the declared rows the
      mask has `m + 1` words and the plan succeeds. With `m = 1`: 33 rows, row 31. */
  lemma MaskSizedByCurrentCountOverflows(m: nat)
    requires m >= 1
    ensures var s := SingleDataset(m + 1, 32 * m + 1, [0]);
            && Valid(s)
            && RowIndex(s, 0, 32 * m - 1, DeletedRowOffset) == 32 * m
            && BuildRowMask([32 * m], s.nRows[0], s.packSize) == Err(IndexError(32 * m))
            && SumRowsPlan(s, [32 * m - 1]).Err?
            && SumRowsPlanIntended(s, [32 * m - 1]).Ok?
  {
    var row := 32 * m - 1;
    var s := SingleDataset(m + 1, 32 * m + 1, [0]);
    SingleDatasetHolds(m + 1, 32 * m + 1, [0], row);
    assert |s.datasets| == 1 && s.packSize == 32 && s.removed[0] == [0]
           && s.initialRows[0] == 32 * m + 1 && s.nRows[0] == 32 * m;
    OverflowOnStore(s, m);
    HeldRowIsPlanned(s, row);
  }

  /** A mask sized by `32 * m` rows has `m` words and has no room for row `32 * m`. */
  lemma MaskOfMWords(m: nat)
    requires m >= 1
    ensures WordCount(32 * m, 32) == m && !InRange(32 * m, 32, m)
    ensures BuildRowMask([32 * m], 32 * m, 32) == Err(IndexError(32 * m))
  {
    DivUnique(32 * m + 31, 32, m, 31);
    DivUnique(32 * m, 32, m, 0);
  }

  lemma OverflowOnStore(s: Store, m: nat)
    requires m >= 1 && Valid(s) && |s.datasets| == 1 && s.packSize == 32
    requires s.initialRows[0] == 32 * m + 1 && s.removed[0] == [0] && s.nRows[0] == 32 * m
    requires RowDataset(s, 32 * m - 1) == 0 && Relatives(s, [32 * m - 1], 0) == {32 * m - 1}
    ensures RowIndex(s, 0, 32 * m - 1, DeletedRowOffset) == 32 * m
    ensures BuildRowMask([32 * m], s.nRows[0], s.packSize) == Err(IndexError(32 * m))
    ensures SumRowsPlan(s, [32 * m - 1]).Err?
  {
    var row := 32 * m - 1;
    MaskOfMWords(m);
    assert CountAtMost([0], row) == CountAtMost([], row) + 1;
    assert row in Relatives(s, [row], 0);
    PlanSucceedsIffTranslationsFit(s, [row], DeletedRowOffset);
  }

  /** A row that the only dataset holds is planned without error under the
      intended translation. */
  lemma HeldRowIsPlanned(s: Store, row: int)
    requires Valid(s) && |s.datasets| == 1 && RowDataset(s, row) == 0
    ensures SumRowsPlanIntended(s, [row]).Ok?
  {
    assert AllLocatable(s, [row]);
    IntendedPlanSucceeds(s, [row]);
  }

  /** The index translation of `remove_rows`: of three rows, row 0 is already
      tombstoned, so current rows 0 and 1 are physical rows 1 and 2. Removing
      current row 1 as written
      tombstones physical row 1 and leaves physical row 2 visible; the intended
      removal leaves exactly physical row 1. */
  lemma RemoveRowsHidesWrongRow()
    ensures var s := SingleDataset(1, 3, [0]);
            && Valid(s)
            && RemoveRows(s, [1]).Ok?
            && Elems(Survivors(3, RemoveRows(s, [1]).value.removed[0])) == {2}
            && RemoveRowsIntended(s, [1]).Ok?
            && Elems(Survivors(3, RemoveRowsIntended(s, [1]).value.removed[0])) == {1}
  {
    SingleDatasetHolds(1, 3, [0], 1);
    RemoveSecondOfThree(SingleDataset(1, 3, [0]));
  }

  lemma RemoveSecondOfThree(s: Store)
    requires Valid(s) && |s.datasets| == 1 && s.initialRows[0] == 3 && s.removed[0] == [0]
    requires RowDataset(s, 1) == 0 && Relatives(s, [1], 0) == {1}
    ensures RemoveRows(s, [1]).Ok?
    ensures Elems(Survivors(3, RemoveRows(s, [1]).value.removed[0])) == {2}
    ensures RemoveRowsIntended(s, [1]).Ok?
    ensures Elems(Survivors(3, RemoveRowsIntended(s, [1]).value.removed[0])) == {1}
  {
    RemoveSecondOfThreeAsWritten(s);
    RemoveSecondOfThreeIntended(s);
  }

  lemma RemoveSecondOfThreeAsWritten(s: Store)
    requires Valid(s) && |s.datasets| == 1 && s.initialRows[0] == 3 && s.removed[0] == [0]
    requires RowDataset(s, 1) == 0 && Relatives(s, [1], 0) == {1}
    ensures RemoveRows(s, [1]).Ok?
    ensures Elems(Survivors(3, RemoveRows(s, [1]).value.removed[0])) == {2}
  {
    RemoveRowsRecordsRelatives(s, [1]);
    var written := RemoveRows(s, [1]).value.removed[0];
    assert Elems(written) == Elems([0]) + {1};
    OnlySurvivorOfThree(written, [0]);
  }

  /** Tombstoning rows 0 and 1 of three leaves row 2. */
  lemma OnlySurvivorOfThree(removed: seq<int>, before: seq<int>)
    requires before == [0] && Elems(removed) == Elems(before) + {1}
    ensures Elems(Survivors(3, removed)) == {2}
  {
    assert Elems(before) == {0};
    OnlySurvivor(removed, 3, 2);
  }

  lemma RemoveSecondOfThreeIntended(s: Store)
    requires Valid(s) && |s.datasets| == 1 && s.initialRows[0] == 3 && s.removed[0] == [0]
    requires RowDataset(s, 1) == 0 && Relatives(s, [1], 0) == {1}
    ensures RemoveRowsIntended(s, [1]).Ok?
    ensures Elems(Survivors(3, RemoveRowsIntended(s, [1]).value.removed[0])) == {1}
  {
    RemoveRowsIntendedRemovesNamedRows(s, [1]);
    SecondSurvivorOfThree(s.initialRows[0], s.removed[0]);
  }

  /** With row 0 of three tombstoned, the survivors are rows 1 and 2, and the
      survivor of rank 1 is row 2. */
  lemma SecondSurvivorOfThree(n: nat, removed: seq<int>)
    requires n == 3 && removed == [0]
    ensures Elems(Survivors(n, removed)) == {1, 2}
    ensures Image(Survivors(n, removed), {1}) == {2}
  {
    var t := Survivors(n, removed);
    SurvivorSet(n, removed);
    forall x
      ensures x in Elems(t) <==> x in {1, 2}
    {
      assert x in removed <==> x == 0;
    }
    assert Elems(t) == {1, 2};
    assert Elems([1, 2]) == {1, 2} by {
      ElemsCons(1, [2]);
      ElemsCons(2, []);
      assert [1] + [2] == [1, 2];
    }
    StrictlySortedUnique(t, [1, 2]);
    assert Image(t, {1}) == {t[1]};
  }

  /** A dataset of `n` rows all of which but `keep` are tombstoned has `keep` as its only survivor. */
  lemma OnlySurvivor(removed: seq<int>, n: nat, keep: int)
    requires 0 <= keep < n && keep !in Elems(removed)
    requires forall x :: 0 <= x < n && x != keep ==> x in Elems(removed)
    ensures Elems(Survivors(n, removed)) == {keep}
  {
    SurvivorSet(n, removed);
    forall x
      ensures x in Elems(Survivors(n, removed)) <==> x == keep
    {
      assert x in removed <==> x in Elems(removed);
    }
  }
}

=== FILE: offsets.dfy ===
/** The offset table of the store: dataset `i` holds the global rows of the
    half-open range `[start[i], stop[i])`, and the ranges are laid end to end in
    dataset order. */
module Offsets {

  function Sum(c: seq<int>): int {
    if c == [] then 0 else Sum(c[..|c| - 1]) + c[|c| - 1]
  }

  predicate NonNegative(c: seq<int>) {
    forall i :: 0 <= i < |c| ==> c[i] >= 0
  }

  /** The table invariant: the first range starts at 0, each range starts where
      the previous one stops, and range `i` is `c[i]` rows long. */
  predicate Contiguous(start: seq<int>, stop: seq<int>, c: seq<int>) {
    && |start| == |c| && |stop| == |c|
    && (|c| > 0 ==> start[0] == 0)
    && (forall i :: 0 < i < |c| ==> start[i] == stop[i - 1])
    && (forall i :: 0 <= i < |c| ==> stop[i] == start[i] + c[i])
  }

  /** The stop column, filled in dataset order: each stop is the previous stop
      (0 for the first dataset) plus the dataset's row count. */
  function Stops(c: seq<int>): (r: seq<int>)
    ensures |r| == |c|
    ensures |c| > 0 ==> r[|c| - 1] == Sum(c)
  {
    if c == [] then []
    else
      var p := Stops(c[..|c| - 1]);
      p + [(if |p| == 0 then 0 else p[|p| - 1]) + c[|c| - 1]]
  }

  /** The start column: 0 for the first dataset, the previous stop otherwise. */
  function Starts(c: seq<int>): (r: seq<int>)
    ensures |r| == |c|
  {
    var stops := Stops(c);
    seq(|c|, i requires 0 <= i < |c| => if i == 0 then 0 else stops[i - 1])
  }

  /** Each stop is the running total of the row counts up to and including its dataset. */
  lemma {:induction false} StopsArePrefixSums(c: seq<int>)
    ensures forall i :: 0 <= i < |c| ==> Stops(c)[i] == Sum(c[..i + 1])
  {
    if c != [] {
      var init := c[..|c| - 1];
      StopsArePrefixSums(init);
      forall i | 0 <= i < |c|
        ensures Stops(c)[i] == Sum(c[..i + 1])
      {
        if i < |c| - 1 {
          assert c[..i + 1] == init[..i + 1];
        } else {
          assert c[..i + 1] == c;
          if |c| > 1 {
            assert init[..|init|] == init;
          }
        }
      }
    }
  }

  /** The table built by `Starts` and `Stops` satisfies the contiguity invariant. */
  lemma OffsetTableContiguous(c: seq<int>)
    ensures Contiguous(Starts(c), Stops(c), c)
  {
    StopsArePrefixSums(c);
    forall i | 0 <= i < |c|
      ensures Stops(c)[i] == Starts(c)[i] + c[i]
    {
      assert c[..i + 1][..i] == c[..i];
      if i > 0 {
        assert Stops(c)[i - 1] == Sum(c[..i]);
      }
    }
  }

  /** In a contiguous table every start and stop is a running total of the counts. */
  lemma {:induction false} ContiguousOffsetsArePrefixSums(start: seq<int>, stop: seq<int>, c: seq<int>, i: int)
    requires Contiguous(start, stop, c)
    requires 0 <= i < |c|
    ensures start[i] == Sum(c[..i])
    ensures stop[i] == Sum(c[..i + 1])
  {
    if i > 0 {
      ContiguousOffsetsArePrefixSums(start, stop, c, i - 1);
    }
    assert c[..i + 1][..i] == c[..i];
  }

  /** The contiguity invariant pins the whole table down: it is the one `Starts`/`Stops` build. */
  lemma ContiguousTableIsUnique(start: seq<int>, stop: seq<int>, c: seq<int>)
    requires Contiguous(start, stop, c)
    ensures start == Starts(c) && stop == Stops(c)
  {
    OffsetTableContiguous(c);
    forall i | 0 <= i < |c|
      ensures start[i] == Starts(c)[i] && stop[i] == Stops(c)[i]
    {
      ContiguousOffsetsArePrefixSums(start, stop, c, i);
      ContiguousOffsetsArePrefixSums(Starts(c), Stops(c), c, i);
    }
  }

  lemma {:induction false} SumNonNegative(c: seq<int>)
    requires NonNegative(c)
    ensures Sum(c) >= 0
  {
    if c != [] {
      SumNonNegative(c[..|c| - 1]);
    }
  }

  /** With non-negative counts the running totals never decrease. */
  lemma {:induction false} PrefixSumMonotone(c: seq<int>, i: int, j: int)
    requires NonNegative(c)
    requires 0 <= i <= j <= |c|
    ensures Sum(c[..i]) <= Sum(c[..j])
    decreases j - i
  {
    if i < j {
      PrefixSumMonotone(c, i, j - 1);
      assert c[..j][..j - 1] == c[..j - 1];
    }
  }

  /** With non-negative counts the ranges are ordered and pairwise disjoint. */
  lemma RangesOrdered(start: seq<int>, stop: seq<int>, c: seq<int>, i: int, j: int)
    requires Contiguous(start, stop, c) && NonNegative(c)
    requires 0 <= i < j < |c|
    ensures stop[i] <= start[j]
  {
    ContiguousOffsetsArePrefixSums(start, stop, c, i);
    ContiguousOffsetsArePrefixSums(start, stop, c, j);
    PrefixSumMonotone(c, i + 1, j);
  }

  function LocateFrom(start: seq<int>, stop: seq<int>, row: int, i: nat): (r: int)
    requires |start| == |stop| && i <= |start|
    ensures r == -1 || i <= r < |start|
    ensures r >= 0 ==> start[r] <= row < stop[r]
    ensures r >= 0 ==> forall j :: i <= j < r ==> !(start[j] <= row < stop[j])
    ensures r == -1 ==> forall j :: i <= j < |start| ==> !(start[j] <= row < stop[j])
    decreases |start| - i
  {
    if i == |start| then -1
    else if stop[i] > row >= start[i] then i
    else LocateFrom(start, stop, row, i + 1)
  }

  /** `_get_row_dataset`: the first dataset whose range holds `row`, or -1. */
  function Locate(start: seq<int>, stop: seq<int>, row: int): (r: int)
    requires |start| == |stop|
    ensures -1 <= r < |start|
    ensures r >= 0 ==> start[r] <= row < stop[r]
    ensures r >= 0 ==> forall j :: 0 <= j < r ==> !(start[j] <= row < stop[j])
    ensures r == -1 <==> forall j :: 0 <= j < |start| ==> !(start[j] <= row < stop[j])
  {
    LocateFrom(start, stop, row, 0)
  }

  /** In a contiguous table with non-negative counts, the range that holds `row` is unique. */
  lemma LocateIsUnique(start: seq<int>, stop: seq<int>, c: seq<int>, row: int, i: int)
    requires Contiguous(start, stop, c) && NonNegative(c)
    requires 0 <= i < |c| && start[i] <= row < stop[i]
    ensures Locate(start, stop, row) == i
  {
    var r := Locate(start, stop, row);
    if r != i {
      assert r >= 0;
      if r < i {
        RangesOrdered(start, stop, c, r, i);
      } else {
        RangesOrdered(start, stop, c, i, r);
      }
    }
  }

  /** A row fails to locate exactly when it is negative or at least the total row count. */
  lemma {:induction false} LocateFailsExactlyOutside(start: seq<int>, stop: seq<int>, c: seq<int>, row: int)
    requires Contiguous(start, stop, c) && NonNegative(c)
    ensures Locate(start, stop, row) == -1 <==> row < 0 || row >= Sum(c)
  {
    var r := Locate(start, stop, row);
    if r >= 0 {
      ContiguousOffsetsArePrefixSums(start, stop, c, r);
      SumNonNegative(c[..r]);
      PrefixSumMonotone(c, r + 1, |c|);
      assert c[..|c|] == c;
    } else if 0 <= row < Sum(c) {
      var k := FirstRangeAbove(start, stop, c, row);
    }
  }

  /** The first dataset whose running total exceeds `row`; its range holds `row`. */
  lemma FirstRangeAbove(start: seq<int>, stop: seq<int>, c: seq<int>, row: int) returns (k: int)
    requires Contiguous(start, stop, c)
    requires 0 <= row < Sum(c)
    ensures 0 <= k < |c| && start[k] <= row < stop[k]
  {
    assert c[..|c|] == c;
    assert c[..0] == [];
    k := 0;
    while Sum(c[..k + 1]) <= row
      invariant 0 <= k < |c|
      invariant Sum(c[..k]) <= row
      decreases |c| - k
    {
      k := k + 1;
    }
    ContiguousOffsetsArePrefixSums(start, stop, c, k);
  }
}

=== FILE: packed_store.dfy ===
/** `HDF5PackedAttributeClassifications`: the index bookkeeping of a logical
    row-by-column boolean matrix split over several packed backing datasets.

    Each dataset keeps its declared (initial) row count, its current row count,
    the ascending list of its removed rows, and the half-open range
    `[start, stop)` of global rows it currently holds. Removing rows only
    records tombstones; nothing is compacted. */
module PackedStore {
  import opened Results
  import opened SortedSets
  import opened Offsets
  import opened Tombstones

  /** The word type of a backing dataset; only uint32 and uint64 are supported. */
  datatype WordType = UInt32 | UInt64 | OtherWordType(code: int)

  /** What the store reads from a backing dataset: its physical number of packed
      rows, its number of columns and its word type. */
  datatype Dataset = Dataset(packedRows: nat, nCols: nat, wordType: WordType)

  datatype Store = Store(
    datasets: seq<Dataset>,
    initialRows: seq<nat>,      // dataset_initial_n_rows
    nRows: seq<int>,            // dataset_n_rows
    removed: seq<seq<int>>,     // dataset_removed_rows
    start: seq<int>,            // dataset_start_example
    stop: seq<int>,             // dataset_stop_example
    totalRows: int,             // total_n_rows
    nCols: nat,                 // dataset_n_cols
    packSize: nat)              // dataset_pack_size

  /** Every dataset has the column count and word type of the first one. */
  predicate Uniform(datasets: seq<Dataset>)
    requires |datasets| > 0
  {
    forall i :: 0 < i < |datasets| ==>
      datasets[i].nCols == datasets[0].nCols && datasets[i].wordType == datasets[0].wordType
  }

  /** A removed list is ascending without repetitions and names rows below the declared count. */
  predicate TombstonesValid(removed: seq<int>, initial: nat) {
    StrictlySorted(removed) && forall k :: 0 <= k < |removed| ==> 0 <= removed[k] < initial
  }

  /** The bookkeeping of dataset `i`: a valid removed list, and a current row
      count equal to the declared count minus the number of tombstones. */
  predicate DatasetValid(s: Store, i: int)
    requires 0 <= i < |s.removed| && i < |s.initialRows| && i < |s.nRows|
  {
    && TombstonesValid(s.removed[i], s.initialRows[i])
    && s.nRows[i] == s.initialRows[i] - |s.removed[i]|
  }

  /** Dataset `i` starts where the previous one stops (at 0 for the first) and
      spans its current row count. */
  predicate RangeValid(s: Store, i: int)
    requires 0 <= i < |s.start| && |s.stop| == |s.start| && i < |s.nRows|
  {
    && s.start[i] == (if i == 0 then 0 else s.stop[i - 1])
    && s.stop[i] == s.start[i] + s.nRows[i]
  }

  /** The invariant established by construction and kept by every removal. A
      declared row-count list longer than the dataset list is accepted by the
      constructor; its extra entries are never touched but count in the total. */
  predicate Valid(s: Store) {
    var k := |s.datasets|;
    && k > 0
    && Uniform(s.datasets)
    && |s.initialRows| == |s.nRows| >= k
    && |s.removed| == k
    && (forall i :: 0 <= i < k ==> DatasetValid(s, i))
    && s.nRows[k..] == s.initialRows[k..]
    && |s.start| == k && |s.stop| == k
    && (forall i :: 0 <= i < k ==> RangeValid(s, i))
    && s.totalRows == Sum(s.nRows)
    && s.nCols == s.datasets[0].nCols
    && ((s.datasets[0].wordType == UInt32 && s.packSize == 32)
        || (s.datasets[0].wordType == UInt64 && s.packSize == 64))
  }

  /** The bookkeeping of one dataset of a valid store; its current count is the
      number of its survivors, hence non-negative. */
  lemma DatasetFacts(s: Store, i: int)
    requires Valid(s) && 0 <= i < |s.datasets|
    ensures TombstonesValid(s.removed[i], s.initialRows[i])
    ensures s.nRows[i] == s.initialRows[i] - |s.removed[i]|
    ensures s.nRows[i] == |Survivors(s.initialRows[i], s.removed[i])|
    ensures 0 <= s.nRows[i] <= s.initialRows[i]
  {
    assert DatasetValid(s, i);
    SurvivorCountIsRowCount(s.initialRows[i], s.removed[i]);
  }

  /** A dataset never has more tombstones than declared rows: current counts are non-negative. */
  lemma CountsNonNegative(s: Store)
    requires Valid(s)
    ensures NonNegative(s.nRows)
    ensures NonNegative(s.nRows[..|s.datasets|])
  {
    forall i | 0 <= i < |s.nRows|
      ensures s.nRows[i] >= 0
    {
      if i < |s.datasets| {
        DatasetFacts(s, i);
      } else {
        assert s.nRows[i] == s.nRows[|s.datasets|..][i - |s.datasets|];
      }
    }
  }

  /** The offset table of a valid store satisfies the contiguity invariant. */
  lemma ValidContiguous(s: Store)
    requires Valid(s)
    ensures Contiguous(s.start, s.stop, s.nRows[..|s.datasets|])
  {
    var k := |s.datasets|;
    assert RangeValid(s, 0);
    forall i | 0 < i < k
      ensures s.start[i] == s.stop[i - 1]
    {
      assert RangeValid(s, i);
    }
    forall i | 0 <= i < k
      ensures s.stop[i] == s.start[i] + s.nRows[..k][i]
    {
      assert RangeValid(s, i);
    }
  }

  /** The range of dataset `i` is `nRows[i]` rows long. */
  lemma RangeLength(s: Store, i: int)
    requires Valid(s) && 0 <= i < |s.datasets|
    ensures s.stop[i] == s.start[i] + s.nRows[i]
  {
    assert RangeValid(s, i);
  }

  /** Every range lies inside `[0, shape[0]]`. */
  lemma RangeWithinShape(s: Store, i: int)
    requires Valid(s) && 0 <= i < |s.datasets|
    ensures 0 <= s.start[i] <= s.stop[i] <= s.totalRows
  {
    var k := |s.datasets|;
    var table := s.nRows[..k];
    CountsNonNegative(s);
    ValidContiguous(s);
    ContiguousOffsetsArePrefixSums(s.start, s.stop, table, i);
    PrefixSumMonotone(table, 0, i);
    PrefixSumMonotone(table, i, i + 1);
    PrefixSumMonotone(table, i + 1, k);
    PrefixSumMonotone(s.nRows, k, |s.nRows|);
    assert table[..k] == table && table[..0] == s.nRows[..0];
    assert s.nRows[..|s.nRows|] == s.nRows;
    assert table[..i + 1] == s.nRows[..i + 1];
    assert table[..i] == s.nRows[..i];
  }

  /** A table built by `Starts` and `Stops` over the current counts is a valid range table. */
  lemma TableRangesValid(s: Store)
    requires |s.nRows| >= |s.datasets|
    requires s.start == Starts(s.nRows[..|s.datasets|]) && s.stop == Stops(s.nRows[..|s.datasets|])
    ensures forall i :: 0 <= i < |s.datasets| ==> RangeValid(s, i)
  {
    OffsetTableContiguous(s.nRows[..|s.datasets|]);
  }

  /** `__init__`: the checks of the constructor in source order, then the offset table. */
  function Create(datasets: seq<Dataset>, counts: seq<nat>): (r: Result<Store>)
    ensures |datasets| == 0 ==> r == Err(IndexError(0))
    ensures |datasets| > 0 && !Uniform(datasets) ==> r == Err(RuntimeError)
    ensures |datasets| > 0 && Uniform(datasets) && |counts| < |datasets| ==> r == Err(IndexError(|counts|))
    ensures |datasets| > 0 && Uniform(datasets) && |counts| >= |datasets| ==>
              (r.Ok? <==> !datasets[0].wordType.OtherWordType?)
    ensures |datasets| > 0 && Uniform(datasets) && |counts| >= |datasets| && datasets[0].wordType.OtherWordType? ==>
              r == Err(ValueError)
    ensures r.Ok? ==> r.value.packSize == if datasets[0].wordType == UInt32 then 32 else 64
    ensures r.Ok? ==> Valid(r.value)
    ensures r.Ok? ==> r.value.datasets == datasets && r.value.initialRows == counts && r.value.nRows == counts
    ensures r.Ok? ==> forall i :: 0 <= i < |datasets| ==> r.value.removed[i] == []
    ensures r.Ok? ==> r.value.totalRows == Sum(counts) && r.value.nCols == datasets[0].nCols
  {
    if |datasets| == 0 then Err(IndexError(0))
    else if !Uniform(datasets) then Err(RuntimeError)
    else if |counts| < |datasets| then Err(IndexError(|counts|))
    else
      var k := |datasets|;
      var table := counts[..k];
      var s := Store(datasets, counts, counts, seq(k, _ => []), Starts(table), Stops(table),
                     Sum(counts), datasets[0].nCols, 0);
      TableRangesValid(s);
      TableRangesValid(s.(packSize := 32));
      TableRangesValid(s.(packSize := 64));
      match datasets[0].wordType
      case UInt32 => Ok(s.(packSize := 32))
      case UInt64 => Ok(s.(packSize := 64))
      case OtherWordType(_) => Err(ValueError)
  }

  /** The `shape` property: (current total row count, column count). */
  function Shape(s: Store): (r: (int, nat))
    requires Valid(s)
    ensures r.0 >= 0
    ensures r.0 == Sum(s.nRows)
    ensures r.1 == s.datasets[0].nCols
  {
    CountsNonNegative(s);
    SumNonNegative(s.nRows);
    (s.totalRows, s.nCols)
  }

  /** `_get_row_dataset`: the dataset that currently holds global row `row`, or -1. */
  function RowDataset(s: Store, row: int): (r: int)
    requires Valid(s)
    ensures -1 <= r < |s.datasets|
    ensures r >= 0 ==> s.start[r] <= row < s.stop[r] && 0 <= row - s.start[r] < s.nRows[r]
  {
    var r := Locate(s.start, s.stop, row);
    if r >= 0 then RangeLength(s, r); r else r
  }

  /** Every global row is held by exactly one dataset, and locating fails exactly
      for rows outside `[0, shape[0])` (when there is one declared count per dataset). */
  lemma RowDatasetIsUniqueRange(s: Store, row: int)
    requires Valid(s)
    ensures forall i :: 0 <= i < |s.datasets| && s.start[i] <= row < s.stop[i] ==> RowDataset(s, row) == i
    ensures RowDataset(s, row) == -1 <==> row < 0 || row >= Sum(s.nRows[..|s.datasets|])
    ensures |s.nRows| == |s.datasets| ==> (RowDataset(s, row) == -1 <==> row < 0 || row >= Shape(s).0)
  {
    var table := s.nRows[..|s.datasets|];
    CountsNonNegative(s);
    ValidContiguous(s);
    forall i | 0 <= i < |s.datasets| && s.start[i] <= row < s.stop[i]
      ensures RowDataset(s, row) == i
    {
      LocateIsUnique(s.start, s.stop, table, row, i);
    }
    LocateFailsExactlyOutside(s.start, s.stop, table, row);
    assert |s.nRows| == |s.datasets| ==> table == s.nRows;
  }

  /** How a global row is turned into a dataset-local index:
      `RelativeIndex` is `row - start[ds]` (what `remove_rows` records),
      `DeletedRowOffset` adds the number of removed rows at most that index once
      (what `sum_rows` uses), and `PhysicalIndex` is the physical row that the
      current row stands for: the survivor of that rank. */
  datatype Mode = RelativeIndex | DeletedRowOffset | PhysicalIndex

  function RowIndex(s: Store, i: int, rel: int, mode: Mode): (r: int)
    requires Valid(s) && 0 <= i < |s.datasets| && 0 <= rel < s.nRows[i]
    ensures mode == RelativeIndex ==> 0 <= r < s.initialRows[i]
    ensures mode == DeletedRowOffset ==> rel <= r <= rel + |s.removed[i]|
    ensures mode == PhysicalIndex ==> 0 <= r < s.initialRows[i] && r !in s.removed[i]
  {
    match mode
    case RelativeIndex => DatasetFacts(s, i); rel
    case DeletedRowOffset => rel + CountAtMost(s.removed[i], rel)
    case PhysicalIndex =>
      DatasetFacts(s, i);
      Survivors(s.initialRows[i], s.removed[i])[rel]
  }

  /** The physical row that current row `g` stands for in the dataset holding it. */
  function PhysicalRow(s: Store, g: int): (p: int)
    requires Valid(s) && RowDataset(s, g) >= 0
    ensures var d := RowDataset(s, g);
            0 <= p < s.initialRows[d] && p !in s.removed[d]
  {
    var d := RowDataset(s, g);
    RowIndex(s, d, g - s.start[d], PhysicalIndex)
  }

  /** The relative indices `row - start[i]` of the rows of `rows` that dataset `i` holds. */
  function Relatives(s: Store, rows: seq<int>, i: int): set<int>
    requires Valid(s) && 0 <= i < |s.datasets|
  {
    set g | g in rows && RowDataset(s, g) == i :: g - s.start[i]
  }

  lemma RelativesMonotone(s: Store, a: seq<int>, b: seq<int>, i: int)
    requires Valid(s) && 0 <= i < |s.datasets|
    requires forall g :: g in a ==> g in b
    ensures Relatives(s, a, i) <= Relatives(s, b, i)
  {
    forall y | y in Relatives(s, a, i)
      ensures y in Relatives(s, b, i)
    {
      var g :| g in a && RowDataset(s, g) == i && y == g - s.start[i];
      assert g in b;
    }
  }

  lemma RelativesSnoc(s: Store, rows: seq<int>, i: int)
    requires Valid(s) && 0 <= i < |s.datasets| && rows != []
    ensures var last := rows[|rows| - 1];
            Relatives(s, rows, i)
            == Relatives(s, rows[..|rows| - 1], i)
               + (if RowDataset(s, last) == i then {last - s.start[i]} else {})
  {
    var init := rows[..|rows| - 1];
    var last := rows[|rows| - 1];
    assert rows == init + [last];
    RelativesMonotone(s, init, rows, i);
    forall y | y in Relatives(s, rows, i)
      ensures y in Relatives(s, init, i) || (RowDataset(s, last) == i && y == last - s.start[i])
    {
      var g :| g in rows && RowDataset(s, g) == i && y == g - s.start[i];
      if g != last {
        assert g in init;
      }
    }
    if RowDataset(s, last) == i {
      assert last in rows;
    }
  }

  /** The position of the first row that no dataset holds, or `|rows|` when every row is held. */
  function FirstUnlocatable(s: Store, rows: seq<int>): (k: nat)
    requires Valid(s)
    ensures k <= |rows|
    ensures forall j :: 0 <= j < k ==> RowDataset(s, rows[j]) >= 0
    ensures k < |rows| ==> RowDataset(s, rows[k]) == -1
  {
    if rows == [] then 0
    else
      var init := rows[..|rows| - 1];
      var k := FirstUnlocatable(s, init);
      if k < |init| then k
      else if RowDataset(s, rows[|rows| - 1]) == -1 then |init|
      else |rows|
  }

  /** The lookup loop shared by `remove_rows` and `sum_rows`: every row is located
      in order, the first unlocatable one raises `IndexError`, and each located row
      appends its relative index `row - start[ds]` to its dataset's list. */
  function Collect(s: Store, rows: seq<int>): (r: Result<seq<seq<int>>>)
    requires Valid(s)
    ensures r.Ok? <==> forall k :: 0 <= k < |rows| ==> RowDataset(s, rows[k]) >= 0
    ensures r.Err? ==> r.error == IndexError(rows[FirstUnlocatable(s, rows)])
    ensures r.Ok? ==> |r.value| == |s.datasets|
  {
    if rows == [] then
      Ok(seq(|s.datasets|, _ => []))
    else
      var init := rows[..|rows| - 1];
      var row := rows[|rows| - 1];
      var acc :- Collect(s, init);
      var ds := RowDataset(s, row);
      if ds == -1 then
        Err(IndexError(row))
      else
        Ok(acc[ds := acc[ds] + [row - s.start[ds]]])
  }

  /** Each dataset's list holds exactly the relative indices of the rows it holds,
      all of them within its current row count. */
  lemma {:induction false} CollectedRelatives(s: Store, rows: seq<int>)
    requires Valid(s) && Collect(s, rows).Ok?
    ensures forall i :: 0 <= i < |s.datasets| ==> Elems(Collect(s, rows).value[i]) == Relatives(s, rows, i)
    ensures forall i, k :: 0 <= i < |s.datasets| && 0 <= k < |Collect(s, rows).value[i]| ==>
              0 <= Collect(s, rows).value[i][k] < s.nRows[i]
  {
    if rows != [] {
      var init := rows[..|rows| - 1];
      var row := rows[|rows| - 1];
      CollectedRelatives(s, init);
      var acc := Collect(s, init).value;
      var ds := RowDataset(s, row);
      var x := row - s.start[ds];
      var r := Collect(s, rows).value;
      assert r == acc[ds := acc[ds] + [x]];
      forall i | 0 <= i < |s.datasets|
        ensures Elems(r[i]) == Relatives(s, rows, i)
      {
        RelativesSnoc(s, rows, i);
        assert forall y :: y in acc[ds] + [x] <==> y in acc[ds] || y == x;
      }
    }
  }

  /** Translates a dataset's list of relative indices, entry by entry. */
  function Translate(s: Store, i: int, rels: seq<int>, mode: Mode): (r: seq<int>)
    requires Valid(s) && 0 <= i < |s.datasets|
    requires forall k :: 0 <= k < |rels| ==> 0 <= rels[k] < s.nRows[i]
    ensures |r| == |rels|
    ensures forall k :: 0 <= k < |rels| ==> r[k] == RowIndex(s, i, rels[k], mode)
  {
    seq(|rels|, k requires 0 <= k < |rels| => RowIndex(s, i, rels[k], mode))
  }

  /** The new removed list of one dataset: the sorted, duplicate-free union of
      its old and new removed rows, or the old list when nothing new is pending. */
  function Merge(removed: seq<int>, pending: seq<int>): (r: seq<int>)
    ensures pending != [] || StrictlySorted(removed) ==> StrictlySorted(r)
    ensures Elems(r) == Elems(removed) + Elems(pending)
    ensures pending == [] ==> r == removed
  {
    if |pending| > 0 then
      assert forall y :: y in removed + pending <==> y in removed || y in pending;
      SortedSet(removed + pending)
    else removed
  }

  /** Merging rows below the declared count keeps the list valid and adds one
      tombstone per row not already removed. */
  lemma MergeValid(removed: seq<int>, pending: seq<int>, initial: nat)
    requires TombstonesValid(removed, initial)
    requires forall k :: 0 <= k < |pending| ==> 0 <= pending[k] < initial
    ensures TombstonesValid(Merge(removed, pending), initial)
    ensures |Merge(removed, pending)| == |removed| + |Elems(pending) - Elems(removed)|
  {
    var r := Merge(removed, pending);
    forall k | 0 <= k < |r|
      ensures 0 <= r[k] < initial
    {
      assert r[k] in Elems(r);
      if r[k] in removed {
        var j :| 0 <= j < |removed| && removed[j] == r[k];
      } else {
        var j :| 0 <= j < |pending| && pending[j] == r[k];
      }
    }
    StrictlySortedCard(r);
    StrictlySortedCard(removed);
    var old_ := Elems(removed);
    var new_ := Elems(pending) - old_;
    assert Elems(r) == old_ + new_;
    assert old_ !! new_;
  }

  lemma MergeCount(removed: seq<int>, pending: seq<int>, initial: nat, merged: seq<int>, count: int, oldCount: int)
    requires TombstonesValid(removed, initial) && oldCount == initial - |removed|
    requires forall k :: 0 <= k < |pending| ==> 0 <= pending[k] < initial
    requires merged == Merge(removed, pending) && count == initial - |merged|
    ensures TombstonesValid(merged, initial)
    ensures count == oldCount - |Elems(pending) - Elems(removed)|
  {
    MergeValid(removed, pending, initial);
  }

  /** The update loop of `remove_rows`: each dataset gets its merged removed list
      and its row count recomputed from it (for a dataset without new entries both
      stay as they were); then every start and stop is recomputed in dataset order
      and the total is summed again. */
  function Apply(s: Store, pending: seq<seq<int>>): (r: Store)
    requires Valid(s)
    requires |pending| == |s.datasets|
    requires forall i, k :: 0 <= i < |pending| && 0 <= k < |pending[i]| ==> 0 <= pending[i][k] < s.initialRows[i]
    ensures Valid(r)
    ensures r.datasets == s.datasets && r.initialRows == s.initialRows
    ensures r.nCols == s.nCols && r.packSize == s.packSize
    ensures forall i :: 0 <= i < |s.datasets| ==> r.removed[i] == Merge(s.removed[i], pending[i])
    ensures forall i :: 0 <= i < |s.datasets| ==>
              r.nRows[i] == s.nRows[i] - |Elems(pending[i]) - Elems(s.removed[i])|
  {
    var k := |s.datasets|;
    var removed := seq(k, i requires 0 <= i < k => Merge(s.removed[i], pending[i]));
    var nRows := seq(|s.nRows|, i requires 0 <= i < |s.nRows| =>
                       if i < k then s.initialRows[i] - |removed[i]| else s.nRows[i]);
    var r := Store(s.datasets, s.initialRows, nRows, removed, Starts(nRows[..k]), Stops(nRows[..k]),
                   Sum(nRows), s.nCols, s.packSize);
    ApplyFacts(s, pending, r);
    r
  }

  /** The store `Apply` builds is valid, and each row count drops by the number
      of rows newly removed from its dataset. */
  lemma ApplyFacts(s: Store, pending: seq<seq<int>>, r: Store)
    requires Valid(s)
    requires |pending| == |s.datasets|
    requires forall i, k :: 0 <= i < |pending| && 0 <= k < |pending[i]| ==> 0 <= pending[i][k] < s.initialRows[i]
    requires r.datasets == s.datasets && r.initialRows == s.initialRows
    requires r.nCols == s.nCols && r.packSize == s.packSize
    requires |r.removed| == |s.datasets| && |r.nRows| == |s.nRows|
    requires forall i :: 0 <= i < |s.datasets| ==> r.removed[i] == Merge(s.removed[i], pending[i])
    requires forall i :: 0 <= i < |s.nRows| ==>
               r.nRows[i] == if i < |s.datasets| then s.initialRows[i] - |r.removed[i]| else s.nRows[i]
    requires r.start == Starts(r.nRows[..|s.datasets|]) && r.stop == Stops(r.nRows[..|s.datasets|])
    requires r.totalRows == Sum(r.nRows)
    ensures Valid(r)
    ensures forall i :: 0 <= i < |s.datasets| ==>
              r.nRows[i] == s.nRows[i] - |Elems(pending[i]) - Elems(s.removed[i])|
  {
    ApplyDatasetsValid(s, pending, r);
    ApplyTableValid(s, r);
  }

  lemma ApplyDatasetsValid(s: Store, pending: seq<seq<int>>, r: Store)
    requires Valid(s)
    requires |pending| == |s.datasets|
    requires forall i, k :: 0 <= i < |pending| && 0 <= k < |pending[i]| ==> 0 <= pending[i][k] < s.initialRows[i]
    requires r.datasets == s.datasets && r.initialRows == s.initialRows && r.packSize == s.packSize
    requires |r.removed| == |s.datasets| && |r.nRows| == |s.nRows|
    requires forall i :: 0 <= i < |s.datasets| ==> r.removed[i] == Merge(s.removed[i], pending[i])
    requires forall i :: 0 <= i < |s.datasets| ==> r.nRows[i] == s.initialRows[i] - |r.removed[i]|
    ensures forall i :: 0 <= i < |s.datasets| ==> DatasetValid(r, i)
    ensures forall i :: 0 <= i < |s.datasets| ==>
              r.nRows[i] == s.nRows[i] - |Elems(pending[i]) - Elems(s.removed[i])|
  {
    forall i | 0 <= i < |s.datasets|
      ensures DatasetValid(r, i)
      ensures r.nRows[i] == s.nRows[i] - |Elems(pending[i]) - Elems(s.removed[i])|
    {
      ApplyDatasetFacts(s, pending[i], r, i);
    }
  }

  lemma ApplyTableValid(s: Store, r: Store)
    requires Valid(s)
    requires r.datasets == s.datasets && r.initialRows == s.initialRows
    requires |r.nRows| == |s.nRows|
    requires forall i :: |s.datasets| <= i < |s.nRows| ==> r.nRows[i] == s.nRows[i]
    requires r.start == Starts(r.nRows[..|s.datasets|]) && r.stop == Stops(r.nRows[..|s.datasets|])
    ensures r.nRows[|s.datasets|..] == r.initialRows[|s.datasets|..]
    ensures |r.start| == |s.datasets| && |r.stop| == |s.datasets|
    ensures forall i :: 0 <= i < |r.datasets| ==> RangeValid(r, i)
  {
    var k := |s.datasets|;
    assert r.nRows[k..] == s.nRows[k..];
    TableRangesValid(r);
  }

  /** One dataset of the store `Apply` builds: valid, and its count drops by the
      number of rows newly removed from it. */
  lemma ApplyDatasetFacts(s: Store, pending: seq<int>, r: Store, i: int)
    requires Valid(s) && 0 <= i < |s.datasets|
    requires forall k :: 0 <= k < |pending| ==> 0 <= pending[k] < s.initialRows[i]
    requires r.datasets == s.datasets && r.initialRows == s.initialRows && r.packSize == s.packSize
    requires |r.removed| == |s.datasets| && |r.nRows| == |s.nRows|
    requires r.removed[i] == Merge(s.removed[i], pending)
    requires r.nRows[i] == s.initialRows[i] - |r.removed[i]|
    ensures DatasetValid(r, i)
    ensures r.nRows[i] == s.nRows[i] - |Elems(pending) - Elems(s.removed[i])|
  {
    DatasetFacts(s, i);
    MergeCount(s.removed[i], pending, s.initialRows[i], r.removed[i], r.nRows[i], s.nRows[i]);
  }

  /** `remove_rows`: all rows are located against the current offsets before
      anything changes, so a row no dataset holds raises `IndexError` and leaves
      the store as it was; the recorded index is `row - start[ds]`. */
  function RemoveRows(s: Store, rows: seq<int>): (r: Result<Store>)
    requires Valid(s)
    ensures r.Err? <==> exists k :: 0 <= k < |rows| && RowDataset(s, rows[k]) == -1
    ensures r.Err? ==> r.error == IndexError(rows[FirstUnlocatable(s, rows)])
    ensures r.Ok? ==> Valid(r.value)
    ensures r.Ok? ==> r.value.datasets == s.datasets && r.value.initialRows == s.initialRows
                      && r.value.nCols == s.nCols && r.value.packSize == s.packSize
  {
    var pending :- Collect(s, rows);
    CollectedRelatives(s, rows);
    PendingInRange(s, pending);
    Ok(Apply(s, pending))
  }

  /** After a successful `remove_rows`, each dataset's tombstones are its old ones
      plus the relative indices of the named rows it held; its count drops by the
      number of those not already removed, and a dataset none of the rows fell in
      keeps its list and count. */
  lemma RemoveRowsRecordsRelatives(s: Store, rows: seq<int>)
    requires Valid(s) && RemoveRows(s, rows).Ok?
    ensures var r := RemoveRows(s, rows).value;
            forall i :: 0 <= i < |s.datasets| ==>
              && Elems(r.removed[i]) == Elems(s.removed[i]) + Relatives(s, rows, i)
              && r.nRows[i] == s.nRows[i] - |Relatives(s, rows, i) - Elems(s.removed[i])|
              && (Relatives(s, rows, i) == {} ==> r.removed[i] == s.removed[i] && r.nRows[i] == s.nRows[i])
  {
    var pending := Collect(s, rows).value;
    CollectedRelatives(s, rows);
    PendingInRange(s, pending);
    var r := RemoveRows(s, rows).value;
    assert r == Apply(s, pending);
    forall i | 0 <= i < |s.datasets|
      ensures Elems(r.removed[i]) == Elems(s.removed[i]) + Relatives(s, rows, i)
      ensures r.nRows[i] == s.nRows[i] - |Relatives(s, rows, i) - Elems(s.removed[i])|
      ensures Relatives(s, rows, i) == {} ==> r.removed[i] == s.removed[i] && r.nRows[i] == s.nRows[i]
    {
    }
  }

  /** Relative indices below the current counts are below the declared counts. */
  lemma PendingInRange(s: Store, pending: seq<seq<int>>)
    requires Valid(s) && |pending| == |s.datasets|
    requires forall i, k :: 0 <= i < |s.datasets| && 0 <= k < |pending[i]| ==> 0 <= pending[i][k] < s.nRows[i]
    ensures forall i, k :: 0 <= i < |pending| && 0 <= k < |pending[i]| ==> 0 <= pending[i][k] < s.initialRows[i]
  {
    forall i, k | 0 <= i < |pending| && 0 <= k < |pending[i]|
      ensures 0 <= pending[i][k] < s.initialRows[i]
    {
      DatasetFacts(s, i);
    }
  }

  /** The physical rows of dataset `i` that the current relative indices `rels` stand for. */
  function NamedPhysical(s: Store, i: int, rels: set<int>): set<int>
    requires Valid(s) && 0 <= i < |s.datasets|
  {
    Image(Survivors(s.initialRows[i], s.removed[i]), rels)
  }

  /** Translating to physical indices names exactly the survivors of the given ranks. */
  lemma TranslatePhysical(s: Store, i: int, rels: seq<int>)
    requires Valid(s) && 0 <= i < |s.datasets|
    requires forall k :: 0 <= k < |rels| ==> 0 <= rels[k] < s.nRows[i]
    ensures Elems(Translate(s, i, rels, PhysicalIndex)) == NamedPhysical(s, i, Elems(rels))
  {
    var t := Translate(s, i, rels, PhysicalIndex);
    var surv := Survivors(s.initialRows[i], s.removed[i]);
    DatasetFacts(s, i);
    forall y | y in t
      ensures y in NamedPhysical(s, i, Elems(rels))
    {
      var k :| 0 <= k < |t| && t[k] == y;
      assert rels[k] in Elems(rels);
    }
    forall y | y in NamedPhysical(s, i, Elems(rels))
      ensures y in t
    {
      var j :| j in Elems(rels) && 0 <= j < |surv| && surv[j] == y;
      var k :| 0 <= k < |rels| && rels[k] == j;
      assert t[k] == y;
    }
  }

  /** `remove_rows` as evidently intended: each named current row is turned into
      the physical row it stands for before it is recorded as a tombstone. */
  function RemoveRowsIntended(s: Store, rows: seq<int>): (r: Result<Store>)
    requires Valid(s)
    ensures r.Err? <==> exists k :: 0 <= k < |rows| && RowDataset(s, rows[k]) == -1
    ensures r.Err? ==> r.error == IndexError(rows[FirstUnlocatable(s, rows)])
    ensures r.Ok? ==> Valid(r.value)
    ensures r.Ok? ==> r.value.datasets == s.datasets && r.value.initialRows == s.initialRows
                      && r.value.nCols == s.nCols && r.value.packSize == s.packSize
  {
    var pending :- Collect(s, rows);
    CollectedRelatives(s, rows);
    var k := |s.datasets|;
    var phys := seq(k, i requires 0 <= i < k => Translate(s, i, pending[i], PhysicalIndex));
    Ok(Apply(s, phys))
  }

  /** One dataset of the intended removal: the survivors lose exactly the named physical rows. */
  lemma IntendedSurvivors(s: Store, i: int, rels: seq<int>, merged: seq<int>)
    requires Valid(s) && 0 <= i < |s.datasets|
    requires forall k :: 0 <= k < |rels| ==> 0 <= rels[k] < s.nRows[i]
    requires merged == Merge(s.removed[i], Translate(s, i, rels, PhysicalIndex))
    ensures Elems(Survivors(s.initialRows[i], merged))
            == Elems(Survivors(s.initialRows[i], s.removed[i])) - NamedPhysical(s, i, Elems(rels))
  {
    var n := s.initialRows[i];
    var p := Translate(s, i, rels, PhysicalIndex);
    TranslatePhysical(s, i, rels);
    SurvivorSet(n, merged);
    SurvivorSet(n, s.removed[i]);
    assert Elems(merged) == Elems(s.removed[i]) + Elems(p);
    forall x
      ensures x in merged <==> x in s.removed[i] || x in p
    {
      assert x in merged <==> x in Elems(merged);
      assert x in s.removed[i] <==> x in Elems(s.removed[i]);
      assert x in p <==> x in Elems(p);
    }
  }

  /** One dataset of the intended removal: the count drops by the number of distinct named rows. */
  lemma IntendedCount(s: Store, i: int, rels: seq<int>, count: int)
    requires Valid(s) && 0 <= i < |s.datasets|
    requires forall k :: 0 <= k < |rels| ==> 0 <= rels[k] < s.nRows[i]
    requires count == s.nRows[i] - |Elems(Translate(s, i, rels, PhysicalIndex)) - Elems(s.removed[i])|
    ensures count == s.nRows[i] - |Elems(rels)|
  {
    var p := Translate(s, i, rels, PhysicalIndex);
    var surv := Survivors(s.initialRows[i], s.removed[i]);
    DatasetFacts(s, i);
    TranslatePhysical(s, i, rels);
    assert Elems(p) - Elems(s.removed[i]) == Elems(p) by {
      forall k | 0 <= k < |p|
        ensures p[k] !in Elems(s.removed[i])
      {
      }
    }
    ImageCard(surv, rels);
  }

  /** After the intended `remove_rows`, each dataset's survivors are its old
      survivors without the physical rows the named rows stood for, and its count
      drops by the number of distinct named rows it held. */
  lemma RemoveRowsIntendedRemovesNamedRows(s: Store, rows: seq<int>)
    requires Valid(s) && RemoveRowsIntended(s, rows).Ok?
    ensures var r := RemoveRowsIntended(s, rows).value;
            forall i :: 0 <= i < |s.datasets| ==>
              && Elems(Survivors(s.initialRows[i], r.removed[i]))
                 == Elems(Survivors(s.initialRows[i], s.removed[i])) - NamedPhysical(s, i, Relatives(s, rows, i))
              && r.nRows[i] == s.nRows[i] - |Relatives(s, rows, i)|
  {
    var pending := Collect(s, rows).value;
    CollectedRelatives(s, rows);
    var r := RemoveRowsIntended(s, rows).value;
    forall i | 0 <= i < |s.datasets|
      ensures Elems(Survivors(s.initialRows[i], r.removed[i]))
              == Elems(Survivors(s.initialRows[i], s.removed[i])) - NamedPhysical(s, i, Relatives(s, rows, i))
      ensures r.nRows[i] == s.nRows[i] - |Relatives(s, rows, i)|
    {
      IntendedSurvivors(s, i, pending[i], r.removed[i]);
      IntendedCount(s, i, pending[i], r.nRows[i]);
    }
  }

  /** On a store with no tombstones the recorded and the intended removal agree:
      the relative index is then the physical row. */
  lemma RemoveRowsAgreeWithoutTombstones(s: Store, rows: seq<int>)
    requires Valid(s)
    requires forall i :: 0 <= i < |s.datasets| ==> s.removed[i] == []
    ensures RemoveRows(s, rows) == RemoveRowsIntended(s, rows)
  {
    var c := Collect(s, rows);
    if c.Ok? {
      var pending := c.value;
      CollectedRelatives(s, rows);
      var k := |s.datasets|;
      var phys := seq(k, i requires 0 <= i < k => Translate(s, i, pending[i], PhysicalIndex));
      forall i | 0 <= i < k
        ensures phys[i] == pending[i]
      {
        SurvivorsWithoutTombstones(s.initialRows[i]);
        DatasetFacts(s, i);
        forall j | 0 <= j < |pending[i]|
          ensures phys[i][j] == pending[i][j]
        {
          assert phys[i][j] == Survivors(s.initialRows[i], [])[pending[i][j]];
        }
      }
      assert phys == pending;
    }
  }
}

=== FILE: results.dfy ===
/** Failure-compatible result type for the operations of the packed store.
    Each error constructor stands for the Python exception the store raises. */
module Results {

  datatype Error =
    | IndexError(index: int)   // a row index (or list slot) outside the current bounds
    | ValueError               // unsupported mask width or word type, or a shape mismatch on assignment
    | RuntimeError             // the datasets disagree on column count or word type
    | TypeError                // numpy knows no unsigned type of the requested byte size

  datatype Result<+T> = Ok(value: T) | Err(error: Error) {

    predicate IsFailure() {
      Err?
    }

    function PropagateFailure<U>(): Result<U>
      requires Err?
    {
      Err(error)
    }

    function Extract(): T
      requires Ok?
    {
      value
    }
  }
}

=== FILE: row_mask.dfy ===
/** `build_row_mask`: a row selection encoded as fixed-width mask words.

    A word is modelled as the sequence of its bits from the most significant
    down: element `j` of a `width`-bit word is bit `width - 1 - j`. Row `r` of
    the selection lives in word `r / width`, at element `r % width`, which is bit
    `width - 1 - r % width` of the word's integer value. */
module RowMask {
  import opened Results
  import opened SortedSets

  type Word = seq<bool>

  predicate SupportedWidth(width: int) {
    width == 8 || width == 16 || width == 32 || width == 64 || width == 128
  }

  /** `int(ceil(float(n) / width))`, and an empty list when that is not positive. */
  function WordCount(n: int, width: nat): (r: nat)
    requires width > 0
    ensures n <= 0 ==> r == 0
    ensures n > 0 ==> n <= r * width && (r - 1) * width < n
  {
    if n <= 0 then 0 else (n + width - 1) / width
  }

  /** The list slot that `masks[idx / width]` designates: Python's floor division,
      and a negative quotient counted from the end of the list. */
  function Slot(idx: int, width: nat, count: nat): (r: int)
    requires width > 0
    ensures idx >= 0 ==> r == idx / width
    ensures 0 <= r < count <==> -(count * width) <= idx < count * width
  {
    QuotientBelow(idx, width, count);
    QuotientBelow(idx, width, 0);
    QuotientBelow(idx, width, -(count as int));
    var q := idx / width;
    if q < 0 then q + count else q
  }

  /** Floor division against a bound: `x // width < c` exactly when `x < c * width`. */
  lemma QuotientBelow(x: int, width: nat, c: int)
    requires width > 0
    ensures x / width < c <==> x < c * width
  {
    var q := x / width;
    assert x == width * q + x % width;
    if q < c {
      MulMonotone(width, q, c - 1);
    } else {
      MulMonotone(width, c, q);
    }
  }

  lemma MulMonotone(w: nat, a: int, b: int)
    requires a <= b
    ensures w * a <= w * b
  {
    assert w * b - w * a == w * (b - a);
  }

  predicate InRange(idx: int, width: nat, count: nat)
    requires width > 0
  {
    0 <= Slot(idx, width, count) < count
  }

  /** The element of its word that `idx` sets: the word holds bit
      `width - (idx - width * (idx / width)) - 1`, element `width - 1` minus that. */
  function Position(idx: int, width: nat): (j: int)
    requires width > 0
    ensures 0 <= j < width
    ensures j == idx % width
  {
    var bit := width - (idx - width * (idx / width)) - 1;
    width - 1 - bit
  }

  predicate WellFormed(words: seq<Word>, width: nat) {
    forall p :: 0 <= p < |words| ==> |words[p]| == width
  }

  /** Some index of `idx` sets element `j` of word `p`. */
  predicate Sets(idx: seq<int>, width: nat, count: nat, p: int, j: int)
    requires width > 0
  {
    exists k :: 0 <= k < |idx| && Slot(idx[k], width, count) == p && Position(idx[k], width) == j
  }

  /** The loop `masks[idx / width] |= 1 << bit` over the indices in order; the
      first index whose slot is outside the list raises `IndexError`. */
  function SetBits(words: seq<Word>, idx: seq<int>, width: nat): (r: Result<seq<Word>>)
    requires width > 0 && WellFormed(words, width)
    ensures r.Ok? <==> forall k :: 0 <= k < |idx| ==> InRange(idx[k], width, |words|)
    ensures r.Err? ==> exists k :: 0 <= k < |idx| && !InRange(idx[k], width, |words|)
                                   && r.error == IndexError(idx[k])
                                   && forall k' :: 0 <= k' < k ==> InRange(idx[k'], width, |words|)
    ensures r.Ok? ==> |r.value| == |words| && WellFormed(r.value, width)
    ensures r.Ok? ==> forall p, j :: 0 <= p < |words| && 0 <= j < width ==>
                        (r.value[p][j] <==> words[p][j] || Sets(idx, width, |words|, p, j))
  {
    if idx == [] then Ok(words)
    else
      var init := idx[..|idx| - 1];
      var last := idx[|idx| - 1];
      var acc :- SetBits(words, init, width);
      var p := Slot(last, width, |words|);
      if p < 0 || p >= |words| then Err(IndexError(last))
      else
        SetsSnoc(idx, width, |words|);
        var r := acc[p := acc[p][Position(last, width) := true]];
        Ok(r)
  }

  /** The bits `idx` sets are those its prefix sets, plus the one its last index sets. */
  lemma SetsSnoc(idx: seq<int>, width: nat, count: nat)
    requires width > 0 && idx != []
    ensures var init, last := idx[..|idx| - 1], idx[|idx| - 1];
            forall q, j :: Sets(idx, width, count, q, j) <==>
              Sets(init, width, count, q, j) || (q == Slot(last, width, count) && j == Position(last, width))
  {
    var init, last := idx[..|idx| - 1], idx[|idx| - 1];
    forall q, j
      ensures Sets(idx, width, count, q, j) <==>
              Sets(init, width, count, q, j) || (q == Slot(last, width, count) && j == Position(last, width))
    {
      if Sets(init, width, count, q, j) {
        var k :| 0 <= k < |init| && Slot(init[k], width, count) == q && Position(init[k], width) == j;
        assert idx[k] == init[k];
      }
      if q == Slot(last, width, count) && j == Position(last, width) {
        assert idx[|idx| - 1] == last;
      }
      if Sets(idx, width, count, q, j) {
        var k :| 0 <= k < |idx| && Slot(idx[k], width, count) == q && Position(idx[k], width) == j;
        if k < |idx| - 1 {
          assert init[k] == idx[k];
        }
      }
    }
  }

  /** `build_row_mask(example_idx, n_examples, mask_n_bits)`. The bits are set
      first; only then is the list turned into an array of dtype
      `"u%d" % (width / 8)`, and numpy has no `"u16"`, so 128-bit words raise
      `TypeError` once every index has been placed. */
  function BuildRowMask(idx: seq<int>, n: int, width: int): (r: Result<seq<Word>>)
    ensures !SupportedWidth(width) ==> r == Err(ValueError)
    ensures SupportedWidth(width) ==>
              (r.Ok? <==> width != 128 && forall k :: 0 <= k < |idx| ==> InRange(idx[k], width, WordCount(n, width)))
    ensures SupportedWidth(width) && (exists k :: 0 <= k < |idx| && !InRange(idx[k], width, WordCount(n, width))) ==>
              exists k :: 0 <= k < |idx| && r == Err(IndexError(idx[k]))
                          && !InRange(idx[k], width, WordCount(n, width))
    ensures width == 128 && (forall k :: 0 <= k < |idx| ==> InRange(idx[k], width, WordCount(n, width))) ==>
              r == Err(TypeError)
    ensures r.Ok? ==> |r.value| == WordCount(n, width) && WellFormed(r.value, width)
    ensures r.Ok? ==> forall p, j :: 0 <= p < |r.value| && 0 <= j < width ==>
                        (r.value[p][j] <==> Sets(idx, width, |r.value|, p, j))
  {
    if !SupportedWidth(width) then Err(ValueError)
    else
      var zero: Word := seq(width, _ => false);
      var masks :- SetBits(seq(WordCount(n, width), _ => zero), idx, width);
      if width == 128 then Err(TypeError) else Ok(masks)
  }

  /** A mask that was built places every one of its indices. */
  lemma BuiltMaskPlacesIndices(idx: seq<int>, n: int, width: int, k: int)
    requires BuildRowMask(idx, n, width).Ok? && 0 <= k < |idx|
    ensures width > 0 && InRange(idx[k], width, WordCount(n, width))
  {
  }

  /** Whether a mask selects row `row`. */
  predicate Selected(words: seq<Word>, width: nat, row: int)
    requires width > 0 && WellFormed(words, width)
    requires 0 <= row < |words| * width
  {
    words[row / width][row % width]
  }

  /** A non-empty, well-formed mask that covers row `row` and selects it. */
  predicate SelectsRow(words: seq<Word>, width: nat, row: int) {
    && width > 0
    && words != []
    && WellFormed(words, width)
    && 0 <= row < |words| * width
    && Selected(words, width, row)
  }

  /** For non-negative indices the mask is exactly the selection: it selects a
      row if and only if the row is one of the indices. */
  lemma MaskSelectsExactlyTheIndices(idx: seq<int>, n: int, width: int)
    requires forall k :: 0 <= k < |idx| ==> idx[k] >= 0
    requires BuildRowMask(idx, n, width).Ok?
    ensures var words := BuildRowMask(idx, n, width).value;
            && (forall k :: 0 <= k < |idx| ==> idx[k] < |words| * width)
            && forall row :: 0 <= row < |words| * width ==> (Selected(words, width, row) <==> row in idx)
  {
    var words := BuildRowMask(idx, n, width).value;
    var count := |words|;
    forall k | 0 <= k < |idx|
      ensures idx[k] < count * width
    {
      assert InRange(idx[k], width, count);
      assert idx[k] / width < count;
    }
    forall row | 0 <= row < count * width
      ensures Selected(words, width, row) <==> row in idx
    {
      RowSetIffIndexed(idx, width, count, row);
    }
  }

  /** With non-negative indices, the bit of row `row` is set exactly when `row`
      is one of the indices. */
  lemma RowSetIffIndexed(idx: seq<int>, width: nat, count: nat, row: nat)
    requires width > 0
    requires forall k :: 0 <= k < |idx| ==> idx[k] >= 0
    ensures Sets(idx, width, count, row / width, row % width) <==> row in idx
  {
    if row in idx {
      var k :| 0 <= k < |idx| && idx[k] == row;
      SlotAndPositionOfNatural(row, width, count);
    }
    if Sets(idx, width, count, row / width, row % width) {
      var k :| 0 <= k < |idx| && Slot(idx[k], width, count) == row / width
               && Position(idx[k], width) == row % width;
      SlotAndPositionOfNatural(idx[k], width, count);
      DivModDetermine(idx[k], row, width);
    }
  }

  /** For a non-negative index, the slot is the quotient and the position the remainder. */
  lemma SlotAndPositionOfNatural(x: int, width: nat, count: nat)
    requires width > 0 && x >= 0
    ensures Slot(x, width, count) == x / width
    ensures Position(x, width) == x % width
  {
    assert x == width * (x / width) + x % width;
  }

  /** Quotient and remainder determine the number. */
  lemma DivModDetermine(x: int, y: int, width: nat)
    requires width > 0
    requires x / width == y / width && x % width == y % width
    ensures x == y
  {
    assert x == width * (x / width) + x % width;
    assert y == width * (y / width) + y % width;
  }

  /** Indices within `[0, n)` always fit the `ceil(n / width)` words of a mask
      sized by `n`: building it cannot raise `IndexError`, and it fails only on
      the word type of 128-bit words. */
  lemma IndicesBelowCountFit(idx: seq<int>, n: int, width: int)
    requires SupportedWidth(width)
    requires forall k :: 0 <= k < |idx| ==> 0 <= idx[k] < n
    ensures width != 128 ==> BuildRowMask(idx, n, width).Ok?
    ensures width == 128 ==> BuildRowMask(idx, n, width) == Err(TypeError)
  {
    var count := WordCount(n, width);
    forall k | 0 <= k < |idx|
      ensures InRange(idx[k], width, count)
    {
      var q := idx[k] / width;
      assert idx[k] == width * q + idx[k] % width;
    }
  }

  /** The mask depends only on the set of indices: their order and repetitions do not matter. */
  lemma MaskIgnoresOrderAndRepeats(idx1: seq<int>, idx2: seq<int>, n: int, width: int)
    requires Elems(idx1) == Elems(idx2)
    ensures BuildRowMask(idx1, n, width).Ok? <==> BuildRowMask(idx2, n, width).Ok?
    ensures BuildRowMask(idx1, n, width).Ok? ==> BuildRowMask(idx1, n, width) == BuildRowMask(idx2, n, width)
  {
    if SupportedWidth(width) {
      var count := WordCount(n, width);
      assert forall x :: x in idx1 <==> x in idx2 by {
        assert forall x :: x in idx1 <==> x in Elems(idx1);
        assert forall x :: x in idx2 <==> x in Elems(idx2);
      }
      forall p, j | 0 <= p < count && 0 <= j < width
        ensures Sets(idx1, width, count, p, j) <==> Sets(idx2, width, count, p, j)
      {
        if Sets(idx1, width, count, p, j) {
          var k :| 0 <= k < |idx1| && Slot(idx1[k], width, count) == p && Position(idx1[k], width) == j;
          assert idx1[k] in idx2;
          var k2 :| 0 <= k2 < |idx2| && idx2[k2] == idx1[k];
        }
        if Sets(idx2, width, count, p, j) {
          var k :| 0 <= k < |idx2| && Slot(idx2[k], width, count) == p && Position(idx2[k], width) == j;
          assert idx2[k] in idx1;
          var k1 :| 0 <= k1 < |idx1| && idx1[k1] == idx2[k];
        }
      }
      var r1 := BuildRowMask(idx1, n, width);
      var r2 := BuildRowMask(idx2, n, width);
      if r1.Ok? {
        assert r2.Ok? by {
          forall k | 0 <= k < |idx2| ensures InRange(idx2[k], width, count) {
            assert idx2[k] in idx1;
          }
        }
        assert r1.value == r2.value by {
          forall p | 0 <= p < count ensures r1.value[p] == r2.value[p] {
            assert forall j :: 0 <= j < width ==> r1.value[p][j] == r2.value[p][j];
          }
        }
      } else {
        assert !r2.Ok? by {
          if r2.Ok? {
            forall k | 0 <= k < |idx1| ensures InRange(idx1[k], width, count) {
              assert idx1[k] in idx2;
            }
          }
        }
      }
    }
  }

  /** An empty selection gives a full-length list of all-zero words, except
      that 128-bit words still fail on their word type. */
  lemma EmptySelectionIsAllZero(n: int, width: int)
    requires SupportedWidth(width)
    ensures width == 128 ==> BuildRowMask([], n, width) == Err(TypeError)
    ensures var r := BuildRowMask([], n, width);
            width != 128 ==>
              && r.Ok? && |r.value| == WordCount(n, width)
              && forall p, j :: 0 <= p < |r.value| && 0 <= j < width ==> !r.value[p][j]
  {
  }

  function Pow2(k: nat): (r: nat)
    ensures r >= 1
  {
    if k == 0 then 1 else 2 * Pow2(k - 1)
  }

  /** The unsigned integer a word stands for, most significant bit first. */
  function WordValue(w: Word): nat {
    if w == [] then 0 else 2 * WordValue(w[..|w| - 1]) + (if w[|w| - 1] then 1 else 0)
  }

  lemma DivUnique(x: int, d: int, q: int, rest: int)
    requires d > 0 && 0 <= rest < d && x == q * d + rest
    ensures x / d == q
  {
    var q' := x / d;
    assert x == q' * d + x % d;
    assert (q - q') * d == x % d - rest;
    if q > q' {
      MultipleAtLeast(q - q', d);
      assert false;
    } else if q < q' {
      MultipleAtLeast(q' - q, d);
      assert false;
    }
  }

  lemma MultipleAtLeast(t: int, d: int)
    requires t >= 1 && d > 0
    ensures t * d >= d
  {
    assert t * d == (t - 1) * d + d;
  }

  lemma DivStep(a: nat, b: nat, m: nat)
    requires b < 2 && m > 0
    ensures (2 * a + b) / (2 * m) == a / m
  {
    var q := a / m;
    var rest := a % m;
    assert a == q * m + rest;
    assert 2 * a + b == q * (2 * m) + (2 * rest + b);
    DivUnique(2 * a + b, 2 * m, q, 2 * rest + b);
  }

  /** A word of `|w|` bits stands for a value below `2^|w|`. */
  lemma {:induction false} WordValueFits(w: Word)
    ensures WordValue(w) < Pow2(|w|)
    decreases |w|
  {
    if w != [] {
      WordValueFits(w[..|w| - 1]);
    }
  }

  /** Element `|w| - 1 - b` of a word is bit `b` of its integer value, and the
      value fits in `|w|` bits. */
  lemma {:induction false} WordValueBits(w: Word, b: nat)
    requires b < |w|
    ensures WordValue(w) < Pow2(|w|)
    ensures (WordValue(w) / Pow2(b)) % 2 == (if w[|w| - 1 - b] then 1 else 0)
    decreases |w|
  {
    WordValueFits(w);
    var init := w[..|w| - 1];
    var bit := if w[|w| - 1] then 1 else 0;
    assert WordValue(w) == 2 * WordValue(init) + bit;
    if b > 0 {
      WordValueBits(init, b - 1);
      DivStep(WordValue(init), bit, Pow2(b - 1));
      assert init[|init| - 1 - (b - 1)] == w[|w| - 1 - b];
    } else {
      DivUnique(WordValue(w), 2, WordValue(init), bit);
      assert WordValue(w) / Pow2(0) == WordValue(w);
    }
  }
}

=== FILE: sorted_sets.dfy ===
/** Sorted sequences of integers: the removed-row lists of the store are kept as
    `sorted(set(...))`, and `sum_rows` sorts its row indices before locating them. */
module SortedSets {

  function Elems(s: seq<int>): set<int> {
    set x | x in s
  }

  predicate StrictlySorted(s: seq<int>) {
    forall i, j :: 0 <= i < j < |s| ==> s[i] < s[j]
  }

  predicate Sorted(s: seq<int>) {
    forall i, j :: 0 <= i < j < |s| ==> s[i] <= s[j]
  }

  lemma ElemsCons(x: int, t: seq<int>)
    ensures Elems([x] + t) == {x} + Elems(t)
  {
    assert forall y :: y in [x] + t <==> y == x || y in t;
  }

  /** Prepending an element below every element keeps a sequence strictly sorted. */
  lemma ConsStrictlySorted(x: int, t: seq<int>)
    requires StrictlySorted(t)
    requires forall y :: y in Elems(t) ==> x < y
    ensures StrictlySorted([x] + t)
  {
    forall i, j | 0 <= i < j < |[x] + t|
      ensures ([x] + t)[i] < ([x] + t)[j]
    {
      assert t[j - 1] in Elems(t);
    }
  }

  lemma InsertStep(s: seq<int>, x: int, t: seq<int>)
    requires StrictlySorted(s) && s != [] && s[0] < x
    requires StrictlySorted(t) && Elems(t) == Elems(s[1..]) + {x}
    ensures StrictlySorted([s[0]] + t)
    ensures Elems([s[0]] + t) == Elems(s) + {x}
  {
    ElemsCons(s[0], s[1..]);
    assert [s[0]] + s[1..] == s;
    ElemsCons(s[0], t);
    ConsStrictlySorted(s[0], t);
  }

  /** Adds `x` to a strictly sorted sequence, keeping it strictly sorted (a no-op if present). */
  function Insert(s: seq<int>, x: int): (r: seq<int>)
    requires StrictlySorted(s)
    ensures StrictlySorted(r)
    ensures Elems(r) == Elems(s) + {x}
  {
    if s == [] then
      ElemsCons(x, []);
      [x]
    else if x < s[0] then
      ElemsCons(x, s);
      ConsStrictlySorted(x, s);
      [x] + s
    else if x == s[0] then
      ElemsCons(s[0], s[1..]);
      assert [s[0]] + s[1..] == s;
      s
    else
      var t := Insert(s[1..], x);
      InsertStep(s, x, t);
      [s[0]] + t
  }

  /** Python's `sorted(set(xs))`: the elements of `xs`, ascending, each once. */
  function SortedSet(xs: seq<int>): (r: seq<int>)
    ensures StrictlySorted(r)
    ensures Elems(r) == Elems(xs)
  {
    if xs == [] then []
    else
      assert Elems(xs) == Elems(xs[..|xs| - 1]) + {xs[|xs| - 1]};
      Insert(SortedSet(xs[..|xs| - 1]), xs[|xs| - 1])
  }

  /** `sorted(set(xs))` ignores order and repetitions in `xs`. */
  lemma SortedSetIsCanonical(xs: seq<int>, ys: seq<int>)
    requires Elems(xs) == Elems(ys)
    ensures SortedSet(xs) == SortedSet(ys)
  {
    StrictlySortedUnique(SortedSet(xs), SortedSet(ys));
  }

  /** A strictly sorted sequence has no repetitions: its length is its number of elements. */
  lemma {:induction false} StrictlySortedCard(s: seq<int>)
    requires StrictlySorted(s)
    ensures |Elems(s)| == |s|
  {
    if s != [] {
      StrictlySortedCard(s[1..]);
      ElemsCons(s[0], s[1..]);
      assert [s[0]] + s[1..] == s;
      assert s[0] !in Elems(s[1..]);
    }
  }

  /** The head of a strictly sorted sequence is its least element, and the tail
      holds exactly the other elements. */
  lemma HeadAndTail(s: seq<int>)
    requires StrictlySorted(s) && s != []
    ensures forall y :: y in Elems(s) ==> s[0] <= y
    ensures Elems(s[1..]) == Elems(s) - {s[0]}
  {
    forall y | y in Elems(s)
      ensures s[0] <= y
    {
      var i :| 0 <= i < |s| && s[i] == y;
    }
    ElemsCons(s[0], s[1..]);
    assert [s[0]] + s[1..] == s;
    assert s[0] !in Elems(s[1..]);
  }

  /** A strictly sorted sequence is determined by its elements. */
  lemma {:induction false} StrictlySortedUnique(a: seq<int>, b: seq<int>)
    requires StrictlySorted(a) && StrictlySorted(b)
    requires Elems(a) == Elems(b)
    ensures a == b
    decreases |a|
  {
    StrictlySortedCard(a);
    StrictlySortedCard(b);
    if |a| > 0 {
      HeadAndTail(a);
      HeadAndTail(b);
      assert a[0] in Elems(b) && b[0] in Elems(a);
      StrictlySortedUnique(a[1..], b[1..]);
      assert a == [a[0]] + a[1..];
      assert b == [b[0]] + b[1..];
    }
  }

  /** Prepending an element no larger than any element keeps a sequence ascending. */
  lemma ConsSorted(x: int, t: seq<int>)
    requires Sorted(t)
    requires forall k :: 0 <= k < |t| ==> x <= t[k]
    ensures Sorted([x] + t)
  {
    forall i, j | 0 <= i < j < |[x] + t|
      ensures ([x] + t)[i] <= ([x] + t)[j]
    {
      assert ([x] + t)[j] == t[j - 1];
    }
  }

  /** Inserts `x` into an ascending sequence, keeping every element. */
  function InsertSorted(s: seq<int>, x: int): (r: seq<int>)
    requires Sorted(s)
    ensures Sorted(r)
    ensures multiset(r) == multiset(s) + multiset{x}
  {
    if s == [] || x <= s[0] then
      ConsSorted(x, s);
      [x] + s
    else
      var t := InsertSorted(s[1..], x);
      assert s == [s[0]] + s[1..];
      forall k | 0 <= k < |t|
        ensures s[0] <= t[k]
      {
        assert t[k] in multiset(t);
        assert t[k] == x || t[k] in multiset(s[1..]);
      }
      ConsSorted(s[0], t);
      [s[0]] + t
  }

  /** numpy's `np.sort`: an ascending permutation of `xs`. */
  function Sort(xs: seq<int>): (r: seq<int>)
    ensures Sorted(r)
    ensures multiset(r) == multiset(xs)
  {
    if xs == [] then []
    else
      assert xs == xs[..|xs| - 1] + [xs[|xs| - 1]];
      InsertSorted(Sort(xs[..|xs| - 1]), xs[|xs| - 1])
  }

  /** The values of `t` at the positions in `idx`. */
  function Image(t: seq<int>, idx: set<int>): set<int> {
    set j | j in idx && 0 <= j < |t| :: t[j]
  }

  lemma ImageAdd(t: seq<int>, e: set<int>, x: int)
    requires 0 <= x < |t|
    ensures Image(t, e + {x}) == Image(t, e) + {t[x]}
  {
  }

  lemma ImageMiss(t: seq<int>, e: set<int>, x: int)
    requires StrictlySorted(t) && 0 <= x < |t| && x !in e
    ensures t[x] !in Image(t, e)
  {
  }

  /** A strictly sorted sequence takes distinct values at distinct positions. */
  lemma {:induction false} ImageCard(t: seq<int>, idx: seq<int>)
    requires StrictlySorted(t)
    requires forall k :: 0 <= k < |idx| ==> 0 <= idx[k] < |t|
    ensures |Image(t, Elems(idx))| == |Elems(idx)|
  {
    if idx != [] {
      var init := idx[..|idx| - 1];
      var x := idx[|idx| - 1];
      ImageCard(t, init);
      assert Elems(idx) == Elems(init) + {x} by {
        assert idx == init + [x];
      }
      var e := Elems(init);
      if x !in e {
        ImageAdd(t, e, x);
        ImageMiss(t, e, x);
        assert |e + {x}| == |e| + 1;
        assert |Image(t, e) + {t[x]}| == |Image(t, e)| + 1;
      } else {
        assert e + {x} == e;
      }
    }
  }
}

=== FILE: sum_rows.dfy ===
/** The index-translation front half of `sum_rows`: everything it decides
    before it reads a single packed word. The requested rows are sorted, each
    is located, turned into a dataset-local index, and every dataset that
    received rows gets a bit mask over its packed words; the accumulator width
    is chosen from the number of rows. */
module SumRows {
  import opened Results
  import opened SortedSets
  import opened Tombstones
  import opened RowMask
  import opened Accumulator
  import opened PackedStore

  /** What `sum_rows` has prepared when it starts reading: the width of the
      per-column sums, the translated indices per dataset and the row mask per
      dataset (empty for a dataset that received no rows). */
  datatype SumPlan = SumPlan(accWidth: nat, indices: seq<seq<int>>, masks: seq<seq<Word>>)

  /** The row count a dataset's mask is sized by: the current count as written
      (`dataset_n_rows[i]`), the declared count when indices are physical. */
  function MaskRows(s: Store, i: int, mode: Mode): (r: int)
    requires Valid(s) && 0 <= i < |s.datasets|
    ensures 0 <= s.nRows[i] <= r <= s.initialRows[i]
  {
    DatasetFacts(s, i);
    if mode == PhysicalIndex then s.initialRows[i] else s.nRows[i]
  }

  /** The mask sizes of every dataset under a translation. */
  function MaskCounts(s: Store, mode: Mode): (r: seq<int>)
    requires Valid(s)
    ensures |r| == |s.datasets|
    ensures forall i :: 0 <= i < |s.datasets| ==> r[i] == MaskRows(s, i, mode)
  {
    seq(|s.datasets|, i requires 0 <= i < |s.datasets| => MaskRows(s, i, mode))
  }

  /** The list comprehension building one mask per dataset in dataset order,
      dataset `i` sized by `counts[i]`; a dataset without indices gets `[]` and
      the first failing mask raises. */
  function Masks(idx: seq<seq<int>>, counts: seq<int>, width: int, k: nat): (r: Result<seq<seq<Word>>>)
    requires |counts| == |idx| && k <= |idx|
    ensures r.Ok? <==> forall i :: 0 <= i < k && idx[i] != [] ==> BuildRowMask(idx[i], counts[i], width).Ok?
    ensures r.Ok? ==> |r.value| == k
    ensures r.Ok? ==> forall i :: 0 <= i < k ==>
                        r.value[i] == if idx[i] == [] then [] else BuildRowMask(idx[i], counts[i], width).value
  {
    if k == 0 then Ok([])
    else
      var init :- Masks(idx, counts, width, k - 1);
      var i := k - 1;
      if idx[i] == [] then Ok(init + [[]])
      else
        var m :- BuildRowMask(idx[i], counts[i], width);
        Ok(init + [m])
  }

  /** The translated index lists of every dataset. */
  function TranslateAll(s: Store, rel: seq<seq<int>>, mode: Mode): (r: seq<seq<int>>)
    requires Valid(s) && |rel| == |s.datasets|
    requires forall i, k :: 0 <= i < |rel| && 0 <= k < |rel[i]| ==> 0 <= rel[i][k] < s.nRows[i]
    ensures |r| == |rel|
    ensures forall i :: 0 <= i < |rel| ==> r[i] == Translate(s, i, rel[i], mode)
  {
    seq(|rel|, i requires 0 <= i < |rel| => Translate(s, i, rel[i], mode))
  }

  /** `sum_rows` up to its reading loop, with the given index translation. */
  function Plan(s: Store, rows: seq<int>, mode: Mode): (r: Result<SumPlan>)
    requires Valid(s)
    ensures r.Ok? ==> r.value.accWidth == ColumnSumWidth(|rows|)
    ensures r.Ok? ==> |r.value.indices| == |s.datasets| && |r.value.masks| == |s.datasets|
    ensures r.Ok? ==> AllLocatable(s, rows)
    ensures !AllLocatable(s, rows) ==> r == Err(IndexError(SmallestUnknownRow(s, rows)))
  {
    var sorted := Sort(rows);
    SortKeepsLocatability(s, rows);
    var rel :- Collect(s, sorted);
    CollectedRelatives(s, sorted);
    var idx := TranslateAll(s, rel, mode);
    var masks :- Masks(idx, MaskCounts(s, mode), s.packSize, |s.datasets|);
    Ok(SumPlan(ColumnSumWidth(|rows|), idx, masks))
  }

  /** Every requested row names a row of the store. */
  predicate AllLocatable(s: Store, rows: seq<int>)
    requires Valid(s)
  {
    forall k :: 0 <= k < |rows| ==> RowDataset(s, rows[k]) >= 0
  }

  /** Whether a row can be located does not depend on the order the rows come in. */
  lemma SameElementsSameLocatability(s: Store, a: seq<int>, b: seq<int>)
    requires Valid(s) && multiset(a) == multiset(b)
    ensures AllLocatable(s, a) ==> AllLocatable(s, b)
  {
    if AllLocatable(s, a) {
      forall k | 0 <= k < |b|
        ensures RowDataset(s, b[k]) >= 0
      {
        assert b[k] in multiset(a);
        var j :| 0 <= j < |a| && a[j] == b[k];
      }
    }
  }

  /** Every row is locatable exactly when every row of its sorted copy is. */
  lemma SortKeepsLocatability(s: Store, rows: seq<int>)
    requires Valid(s)
    ensures AllLocatable(s, rows) <==> AllLocatable(s, Sort(rows))
  {
    SameElementsSameLocatability(s, rows, Sort(rows));
    SameElementsSameLocatability(s, Sort(rows), rows);
  }

  /** `sum_rows` as written: the deleted-row correction of `sum_rows` and
      masks sized by the current row counts. */
  function SumRowsPlan(s: Store, rows: seq<int>): (r: Result<SumPlan>)
    requires Valid(s)
    ensures r.Ok? ==> r.value.accWidth == ColumnSumWidth(|rows|)
  {
    Plan(s, rows, DeletedRowOffset)
  }

  /** `sum_rows` as evidently intended: each current row is turned into the
      physical row it stands for and masks cover every declared row. */
  function SumRowsPlanIntended(s: Store, rows: seq<int>): (r: Result<SumPlan>)
    requires Valid(s)
    ensures r.Ok? ==> r.value.accWidth == ColumnSumWidth(|rows|)
  {
    Plan(s, rows, PhysicalIndex)
  }

  /** The row `sum_rows` reports when no dataset holds some requested row (it
      lies outside `[0, shape[0])` when there is one count per dataset): the
      first one met in sorted order, which is the smallest such row. */
  function SmallestUnknownRow(s: Store, rows: seq<int>): (x: int)
    requires Valid(s) && !AllLocatable(s, rows)
    ensures x in rows && RowDataset(s, x) == -1
    ensures forall k :: 0 <= k < |rows| && rows[k] < x ==> RowDataset(s, rows[k]) >= 0
  {
    var sorted := Sort(rows);
    SortKeepsLocatability(s, rows);
    var f := FirstUnlocatable(s, sorted);
    assert sorted[f] in multiset(sorted);
    forall k | 0 <= k < |rows| && rows[k] < sorted[f]
      ensures RowDataset(s, rows[k]) >= 0
    {
      assert rows[k] in multiset(sorted);
      BelowFirstUnlocatable(s, sorted, rows[k]);
    }
    sorted[f]
  }

  /** In an ascending list, a value below the first unlocatable entry is locatable. */
  lemma BelowFirstUnlocatable(s: Store, sorted: seq<int>, x: int)
    requires Valid(s) && Sorted(sorted) && x in sorted
    requires FirstUnlocatable(s, sorted) < |sorted| && x < sorted[FirstUnlocatable(s, sorted)]
    ensures RowDataset(s, x) >= 0
  {
    var f := FirstUnlocatable(s, sorted);
    var j :| 0 <= j < |sorted| && sorted[j] == x;
    assert j < f;
  }

  /** The relatives of a dataset do not depend on the order of the rows. */
  lemma SortKeepsRelatives(s: Store, rows: seq<int>, i: int)
    requires Valid(s) && 0 <= i < |s.datasets|
    ensures Relatives(s, Sort(rows), i) == Relatives(s, rows, i)
  {
    var sorted := Sort(rows);
    forall g | g in rows
      ensures g in sorted
    {
      assert g in multiset(rows);
    }
    forall g | g in sorted
      ensures g in rows
    {
      assert g in multiset(sorted);
    }
    RelativesMonotone(s, rows, sorted, i);
    RelativesMonotone(s, sorted, rows, i);
  }

  /** The rows a translation sends the relative indices `rels` of dataset `i` to. */
  function Targets(s: Store, i: int, rels: set<int>, mode: Mode): set<int>
    requires Valid(s) && 0 <= i < |s.datasets|
  {
    set rel | rel in rels && 0 <= rel < s.nRows[i] :: RowIndex(s, i, rel, mode)
  }

  lemma TranslateTargets(s: Store, i: int, rels: seq<int>, mode: Mode)
    requires Valid(s) && 0 <= i < |s.datasets|
    requires forall k :: 0 <= k < |rels| ==> 0 <= rels[k] < s.nRows[i]
    ensures Elems(Translate(s, i, rels, mode)) == Targets(s, i, Elems(rels), mode)
  {
    var t := Translate(s, i, rels, mode);
    forall x | x in Targets(s, i, Elems(rels), mode)
      ensures x in Elems(t)
    {
      var rel :| rel in Elems(rels) && 0 <= rel < s.nRows[i] && x == RowIndex(s, i, rel, mode);
      var k :| 0 <= k < |rels| && rels[k] == rel;
      assert t[k] == x;
    }
  }

  /** What the plan holds for dataset `i`: the translated relative indices of
      the rows it holds (none exactly when it holds no requested row), and a mask
      built from them when there are some. */
  lemma PlanContents(s: Store, rows: seq<int>, mode: Mode, i: int)
    requires Valid(s) && 0 <= i < |s.datasets| && Plan(s, rows, mode).Ok?
    ensures var plan := Plan(s, rows, mode).value;
            && Elems(plan.indices[i]) == Targets(s, i, Relatives(s, rows, i), mode)
            && (plan.indices[i] == [] <==> Relatives(s, rows, i) == {})
            && (forall k :: 0 <= k < |plan.indices[i]| ==> plan.indices[i][k] >= 0)
            && (plan.indices[i] != [] ==> BuildRowMask(plan.indices[i], MaskRows(s, i, mode), s.packSize).Ok?)
            && plan.masks[i] == if plan.indices[i] == [] then [] else BuildRowMask(plan.indices[i], MaskRows(s, i, mode), s.packSize).value
  {
    var sorted := Sort(rows);
    var rel := Collect(s, sorted).value;
    CollectedRelatives(s, sorted);
    SortKeepsRelatives(s, rows, i);
    var idx := TranslateAll(s, rel, mode);
    assert Plan(s, rows, mode).value.indices == idx;
    TranslateTargets(s, i, rel[i], mode);
    forall k | 0 <= k < |idx[i]|
      ensures idx[i][k] >= 0
    {
      assert rel[i][k] >= 0;
    }
    if rel[i] != [] {
      assert rel[i][0] in Elems(rel[i]);
    }
  }

  /** Dataset `i` gets a mask exactly when it holds a requested row, and that
      mask selects precisely the plan's indices for it. */
  lemma PlanMaskSelectsIndices(s: Store, rows: seq<int>, mode: Mode, i: int)
    requires Valid(s) && 0 <= i < |s.datasets| && Plan(s, rows, mode).Ok?
    ensures var plan := Plan(s, rows, mode).value;
            && (plan.masks[i] == [] <==> Relatives(s, rows, i) == {})
            && (plan.masks[i] != [] ==>
                  && WellFormed(plan.masks[i], s.packSize)
                  && (forall k :: 0 <= k < |plan.indices[i]| ==> plan.indices[i][k] < |plan.masks[i]| * s.packSize)
                  && forall p :: 0 <= p < |plan.masks[i]| * s.packSize ==>
                       (Selected(plan.masks[i], s.packSize, p) <==> p in plan.indices[i]))
  {
    var plan := Plan(s, rows, mode).value;
    PlanContents(s, rows, mode, i);
    var idx := plan.indices[i];
    if idx != [] {
      var m := BuildRowMask(idx, MaskRows(s, i, mode), s.packSize);
      assert InRange(idx[0], s.packSize, WordCount(MaskRows(s, i, mode), s.packSize));
      assert |m.value| > 0;
      MaskSelectsExactlyTheIndices(idx, MaskRows(s, i, mode), s.packSize);
    }
  }

  /** The physical translation sends relative indices to the survivors of those ranks. */
  lemma PhysicalTargetsAreNamed(s: Store, i: int, rels: set<int>)
    requires Valid(s) && 0 <= i < |s.datasets|
    ensures Targets(s, i, rels, PhysicalIndex) == NamedPhysical(s, i, rels)
  {
    DatasetFacts(s, i);
  }

  /** Every requested row's translation lies in the mask of the dataset holding it. */
  predicate TranslationsFit(s: Store, rows: seq<int>, mode: Mode)
    requires Valid(s)
  {
    forall i, rel :: 0 <= i < |s.datasets| && rel in Relatives(s, rows, i) && 0 <= rel < s.nRows[i] ==>
      InRange(RowIndex(s, i, rel, mode), s.packSize, WordCount(MaskRows(s, i, mode), s.packSize))
  }

  /** The plan fails exactly when a requested row is unknown (IndexError from the
      lookup) or a translated row lies beyond its mask (IndexError from `build_row_mask`). */
  lemma PlanSucceedsIffTranslationsFit(s: Store, rows: seq<int>, mode: Mode)
    requires Valid(s)
    ensures Plan(s, rows, mode).Ok? <==> AllLocatable(s, rows) && TranslationsFit(s, rows, mode)
  {
    if Plan(s, rows, mode).Ok? {
      PlannedTranslationsFit(s, rows, mode);
    } else if AllLocatable(s, rows) && TranslationsFit(s, rows, mode) {
      FittingTranslationsPlan(s, rows, mode);
    }
  }

  lemma PlannedTranslationsFit(s: Store, rows: seq<int>, mode: Mode)
    requires Valid(s) && Plan(s, rows, mode).Ok?
    ensures TranslationsFit(s, rows, mode)
  {
    forall i, rel | 0 <= i < |s.datasets| && rel in Relatives(s, rows, i) && 0 <= rel < s.nRows[i]
      ensures InRange(RowIndex(s, i, rel, mode), s.packSize, WordCount(MaskRows(s, i, mode), s.packSize))
    {
      PlannedTranslationFits(s, rows, mode, i, rel);
    }
  }

  lemma PlannedTranslationFits(s: Store, rows: seq<int>, mode: Mode, i: int, rel: int)
    requires Valid(s) && Plan(s, rows, mode).Ok?
    requires 0 <= i < |s.datasets| && rel in Relatives(s, rows, i) && 0 <= rel < s.nRows[i]
    ensures InRange(RowIndex(s, i, rel, mode), s.packSize, WordCount(MaskRows(s, i, mode), s.packSize))
  {
    PlanContents(s, rows, mode, i);
    var idx := Plan(s, rows, mode).value.indices[i];
    assert RowIndex(s, i, rel, mode) in Elems(idx);
    var k :| 0 <= k < |idx| && idx[k] == RowIndex(s, i, rel, mode);
    BuiltMaskPlacesIndices(idx, MaskRows(s, i, mode), s.packSize, k);
  }

  lemma FittingTranslationsPlan(s: Store, rows: seq<int>, mode: Mode)
    requires Valid(s) && AllLocatable(s, rows) && TranslationsFit(s, rows, mode)
    ensures Plan(s, rows, mode).Ok?
  {
    var sorted := Sort(rows);
    SortKeepsLocatability(s, rows);
    var rel := Collect(s, sorted).value;
    CollectedRelatives(s, sorted);
    var idx := TranslateAll(s, rel, mode);
    forall i | 0 <= i < |s.datasets| && idx[i] != []
      ensures BuildRowMask(idx[i], MaskRows(s, i, mode), s.packSize).Ok?
    {
      SortKeepsRelatives(s, rows, i);
      forall k | 0 <= k < |idx[i]|
        ensures InRange(idx[i][k], s.packSize, WordCount(MaskRows(s, i, mode), s.packSize))
      {
        assert idx[i][k] == RowIndex(s, i, rel[i][k], mode);
        assert rel[i][k] in Relatives(s, rows, i);
      }
    }
  }

  /** With physical indices the plan never fails on rows that all exist: every
      index lies below the declared row count its mask is sized by. */
  lemma IntendedPlanSucceeds(s: Store, rows: seq<int>)
    requires Valid(s) && AllLocatable(s, rows)
    ensures SumRowsPlanIntended(s, rows).Ok?
  {
    var sorted := Sort(rows);
    SortKeepsLocatability(s, rows);
    var rel := Collect(s, sorted).value;
    CollectedRelatives(s, sorted);
    var idx := TranslateAll(s, rel, PhysicalIndex);
    forall i | 0 <= i < |s.datasets| && idx[i] != []
      ensures BuildRowMask(idx[i], MaskRows(s, i, PhysicalIndex), s.packSize).Ok?
    {
      forall k | 0 <= k < |idx[i]|
        ensures 0 <= idx[i][k] < s.initialRows[i]
      {
        assert idx[i][k] == RowIndex(s, i, rel[i][k], PhysicalIndex);
      }
      IndicesBelowCountFit(idx[i], s.initialRows[i], s.packSize);
    }
  }

  /** Under the intended translation the mask of dataset `i` selects exactly the
      physical rows that the requested rows it holds stand for. */
  lemma IntendedMaskSelectsNamedRows(s: Store, rows: seq<int>, i: int)
    requires Valid(s) && 0 <= i < |s.datasets| && SumRowsPlanIntended(s, rows).Ok?
    ensures var m := SumRowsPlanIntended(s, rows).value.masks[i];
            m != [] ==>
              && WellFormed(m, s.packSize)
              && (forall p :: p in NamedPhysical(s, i, Relatives(s, rows, i)) ==> 0 <= p < |m| * s.packSize)
              && forall p :: 0 <= p < |m| * s.packSize ==>
                   (Selected(m, s.packSize, p) <==> p in NamedPhysical(s, i, Relatives(s, rows, i)))
  {
    var plan := SumRowsPlanIntended(s, rows).value;
    PlanMaskSelectsIndices(s, rows, PhysicalIndex, i);
    PlanContents(s, rows, PhysicalIndex, i);
    PhysicalTargetsAreNamed(s, i, Relatives(s, rows, i));
    var idx := plan.indices[i];
    forall p | p in NamedPhysical(s, i, Relatives(s, rows, i))
      ensures 0 <= p < |plan.masks[i]| * s.packSize
    {
      assert p in Elems(idx);
      var k :| 0 <= k < |idx| && idx[k] == p;
    }
  }

  /** The mask of dataset `d` exists and selects physical row `p`. */
  predicate Counted(s: Store, plan: SumPlan, d: int, p: int) {
    0 <= d < |plan.masks| && SelectsRow(plan.masks[d], s.packSize, p)
  }

  /** Under the intended translation every requested row is counted at the
      physical row it stands for, the same row `get_column` reads for it. */
  lemma IntendedPlanCountsEveryRequestedRow(s: Store, rows: seq<int>)
    requires Valid(s) && SumRowsPlanIntended(s, rows).Ok?
    ensures forall k :: 0 <= k < |rows| ==>
              RowDataset(s, rows[k]) >= 0
              && Counted(s, SumRowsPlanIntended(s, rows).value, RowDataset(s, rows[k]), PhysicalRow(s, rows[k]))
  {
    IntendedPlanLocatesEveryRow(s, rows);
    forall k | 0 <= k < |rows|
      ensures RowDataset(s, rows[k]) >= 0
      ensures Counted(s, SumRowsPlanIntended(s, rows).value, RowDataset(s, rows[k]), PhysicalRow(s, rows[k]))
    {
      RequestedRowCounted(s, rows, k, RowDataset(s, rows[k]));
    }
  }

  /** Requested row `k`, held by dataset `d`, is counted at the physical row it stands for. */
  lemma RequestedRowCounted(s: Store, rows: seq<int>, k: int, d: int)
    requires Valid(s) && SumRowsPlanIntended(s, rows).Ok? && AllLocatable(s, rows)
    requires 0 <= k < |rows| && d == RowDataset(s, rows[k])
    ensures d >= 0
    ensures Counted(s, SumRowsPlanIntended(s, rows).value, d, PhysicalRow(s, rows[k]))
  {
    RequestedRowIsNamed(s, rows, k, d);
    NamedRowCounted(s, rows, d, PhysicalRow(s, rows[k]));
  }

  /** The intended plan exists only when every requested row exists. */
  lemma IntendedPlanLocatesEveryRow(s: Store, rows: seq<int>)
    requires Valid(s) && SumRowsPlanIntended(s, rows).Ok?
    ensures AllLocatable(s, rows)
  {
    assert Plan(s, rows, PhysicalIndex).Ok?;
  }

  /** A requested row stands for a physical row its dataset's requested rows name. */
  lemma RequestedRowIsNamed(s: Store, rows: seq<int>, k: int, d: int)
    requires Valid(s) && AllLocatable(s, rows) && 0 <= k < |rows| && d == RowDataset(s, rows[k])
    ensures 0 <= d < |s.datasets|
    ensures PhysicalRow(s, rows[k]) in NamedPhysical(s, d, Relatives(s, rows, d))
  {
    HeldRowIsRelative(s, rows, k);
    DatasetFacts(s, d);
  }

  /** A physical row named by the requested rows of dataset `d` is counted there. */
  lemma NamedRowCounted(s: Store, rows: seq<int>, d: int, p: int)
    requires Valid(s) && 0 <= d < |s.datasets| && SumRowsPlanIntended(s, rows).Ok?
    requires p in NamedPhysical(s, d, Relatives(s, rows, d))
    ensures Counted(s, SumRowsPlanIntended(s, rows).value, d, p)
  {
    var plan := SumRowsPlanIntended(s, rows).value;
    var m := plan.masks[d];
    PlanMaskSelectsIndices(s, rows, PhysicalIndex, d);
    assert Relatives(s, rows, d) != {};
    assert m != [];
    IntendedMaskSelectsNamedRows(s, rows, d);
    assert 0 <= p < |m| * s.packSize;
    assert Selected(m, s.packSize, p);
    assert SelectsRow(m, s.packSize, p);
  }

  /** A requested row contributes its relative index to the dataset holding it. */
  lemma HeldRowIsRelative(s: Store, rows: seq<int>, k: int)
    requires Valid(s) && 0 <= k < |rows| && RowDataset(s, rows[k]) >= 0
    ensures rows[k] - s.start[RowDataset(s, rows[k])] in Relatives(s, rows, RowDataset(s, rows[k]))
  {
  }

  /** On a store without tombstones the deleted-row correction and the mask
      sizing of `sum_rows` are exact: the plan as written is the intended one. */
  lemma SumRowsAgreeWithoutTombstones(s: Store, rows: seq<int>)
    requires Valid(s) && forall i :: 0 <= i < |s.datasets| ==> s.removed[i] == []
    ensures SumRowsPlan(s, rows) == SumRowsPlanIntended(s, rows)
  {
    var sorted := Sort(rows);
    if Collect(s, sorted).Ok? {
      var rel := Collect(s, sorted).value;
      CollectedRelatives(s, sorted);
      forall i | 0 <= i < |s.datasets|
        ensures Translate(s, i, rel[i], DeletedRowOffset) == Translate(s, i, rel[i], PhysicalIndex)
        ensures MaskRows(s, i, DeletedRowOffset) == MaskRows(s, i, PhysicalIndex)
      {
        DatasetFacts(s, i);
        TranslateWithoutTombstones(s, i, rel[i]);
      }
      assert TranslateAll(s, rel, DeletedRowOffset) == TranslateAll(s, rel, PhysicalIndex);
      assert MaskCounts(s, DeletedRowOffset) == MaskCounts(s, PhysicalIndex);
    }
  }

  /** Without tombstones both corrections leave relative indices as they are. */
  lemma TranslateWithoutTombstones(s: Store, i: int, rels: seq<int>)
    requires Valid(s) && 0 <= i < |s.datasets| && s.removed[i] == []
    requires forall k :: 0 <= k < |rels| ==> 0 <= rels[k] < s.nRows[i]
    ensures Translate(s, i, rels, DeletedRowOffset) == rels
    ensures Translate(s, i, rels, PhysicalIndex) == rels
  {
    DatasetFacts(s, i);
    SurvivorsWithoutTombstones(s.initialRows[i]);
    forall k | 0 <= k < |rels|
      ensures RowIndex(s, i, rels[k], DeletedRowOffset) == rels[k]
      ensures RowIndex(s, i, rels[k], PhysicalIndex) == rels[k]
    {
    }
  }
}

=== FILE: tombstones.dfy ===
/** Tombstoned rows: a dataset keeps its physical rows, and the rows listed in
    its removed list are only hidden. The rows still visible, in physical order,
    are the dataset's survivors; the k-th survivor is the physical row that the
    dataset's k-th current (post-deletion) row stands for. */
module Tombstones {
  import opened SortedSets

  /** The physical rows below `n` that are not tombstoned, ascending. */
  function Survivors(n: nat, removed: seq<int>): (r: seq<int>)
    ensures StrictlySorted(r)
    ensures forall k :: 0 <= k < |r| ==> 0 <= r[k] < n && r[k] !in removed
  {
    if n == 0 then []
    else
      var p := Survivors(n - 1, removed);
      if n - 1 in removed then p else p + [n - 1]
  }

  /** Every physical row below `n` that is not tombstoned is a survivor. */
  lemma {:induction false} SurvivorsComplete(n: nat, removed: seq<int>, x: int)
    requires 0 <= x < n && x !in removed
    ensures x in Survivors(n, removed)
  {
    if x < n - 1 {
      SurvivorsComplete(n - 1, removed, x);
    }
  }

  /** The survivors are exactly the rows of `[0, n)` that are not tombstoned. */
  lemma SurvivorSet(n: nat, removed: seq<int>)
    ensures Elems(Survivors(n, removed)) == set x | 0 <= x < n && x !in removed
  {
    forall x | 0 <= x < n && x !in removed
      ensures x in Survivors(n, removed)
    {
      SurvivorsComplete(n, removed, x);
    }
  }

  /** The tombstones that lie below `n`. */
  function TombstonesBelow(removed: seq<int>, n: int): set<int> {
    set x | x in removed && 0 <= x < n
  }

  /** Every physical row below `n` is either a survivor or a tombstone. */
  lemma {:induction false} SurvivorsCount(n: nat, removed: seq<int>)
    ensures |Survivors(n, removed)| + |TombstonesBelow(removed, n)| == n
  {
    if n > 0 {
      SurvivorsCount(n - 1, removed);
      if n - 1 in removed {
        assert TombstonesBelow(removed, n) == TombstonesBelow(removed, n - 1) + {n - 1};
      } else {
        assert TombstonesBelow(removed, n) == TombstonesBelow(removed, n - 1);
      }
    }
  }

  /** When the removed list is strictly sorted and lies inside `[0, n)`, the
      dataset has exactly `n - |removed|` survivors. */
  lemma SurvivorCountIsRowCount(n: nat, removed: seq<int>)
    requires StrictlySorted(removed)
    requires forall k :: 0 <= k < |removed| ==> 0 <= removed[k] < n
    ensures |Survivors(n, removed)| == n - |removed|
  {
    SurvivorsCount(n, removed);
    assert TombstonesBelow(removed, n) == Elems(removed) by {
      assert forall x :: x in removed ==> 0 <= x < n;
    }
    StrictlySortedCard(removed);
  }

  /** Without tombstones every physical row survives, in place. */
  lemma {:induction false} SurvivorsWithoutTombstones(n: nat)
    ensures |Survivors(n, [])| == n
    ensures forall k :: 0 <= k < n ==> Survivors(n, [])[k] == k
  {
    if n > 0 {
      SurvivorsWithoutTombstones(n - 1);
    }
  }

  /** The k-th survivor has exactly k survivors before it. */
  lemma {:induction false} SurvivorRank(n: nat, removed: seq<int>, k: int)
    requires 0 <= k < |Survivors(n, removed)|
    ensures |Survivors(Survivors(n, removed)[k] + 1, removed)| == k + 1
  {
    var p := Survivors(n - 1, removed);
    var s := Survivors(n, removed);
    assert s == if n - 1 in removed then p else p + [n - 1];
    if k < |p| {
      assert s[k] == p[k];
      SurvivorRank(n - 1, removed, k);
    } else {
      assert s[k] + 1 == n;
    }
  }

  /** The number of entries of the removed list that are at most `v`. */
  function CountAtMost(removed: seq<int>, v: int): (r: nat)
    ensures r <= |removed|
    ensures (forall k :: 0 <= k < |removed| ==> removed[k] <= v) ==> r == |removed|
    ensures (forall k :: 0 <= k < |removed| ==> removed[k] > v) ==> r == 0
  {
    if removed == [] then 0
    else CountAtMost(removed[..|removed| - 1], v) + (if removed[|removed| - 1] <= v then 1 else 0)
  }

  lemma TombstonesBelowSnoc(init: seq<int>, last: int, n: int)
    ensures TombstonesBelow(init + [last], n)
            == TombstonesBelow(init, n) + (if 0 <= last < n then {last} else {})
  {
    assert forall x :: x in init + [last] <==> x in init || x == last;
  }

  /** For a list without repetitions of non-negative rows, the count of entries
      at most `v` is the number of tombstones below `v + 1`. */
  lemma {:induction false} CountAtMostIsTombstonesBelow(removed: seq<int>, v: int)
    requires StrictlySorted(removed)
    requires forall k :: 0 <= k < |removed| ==> removed[k] >= 0
    ensures CountAtMost(removed, v) == |TombstonesBelow(removed, v + 1)|
  {
    if removed != [] {
      var init := removed[..|removed| - 1];
      var last := removed[|removed| - 1];
      assert removed == init + [last];
      CountAtMostIsTombstonesBelow(init, v);
      TombstonesBelowSnoc(init, last, v + 1);
      assert last !in TombstonesBelow(init, v + 1) by {
        assert forall k :: 0 <= k < |init| ==> init[k] < last;
      }
    }
  }

  /** The k-th survivor `p` is the fixpoint of the deleted-row correction: it is
      `k` plus the number of tombstones at or below `p` itself. */
  lemma PhysicalRowIsFixpoint(n: nat, removed: seq<int>, k: int)
    requires StrictlySorted(removed)
    requires forall k :: 0 <= k < |removed| ==> removed[k] >= 0
    requires 0 <= k < |Survivors(n, removed)|
    ensures Survivors(n, removed)[k] == k + CountAtMost(removed, Survivors(n, removed)[k])
  {
    var p := Survivors(n, removed)[k];
    SurvivorRank(n, removed, k);
    SurvivorsCount(p + 1, removed);
    CountAtMostIsTombstonesBelow(removed, p);
  }

  /** The positions at which a boolean mask is true, ascending. */
  function Kept(m: seq<bool>): (r: seq<int>)
    ensures forall k :: 0 <= k < |r| ==> 0 <= r[k] < |m| && m[r[k]]
  {
    if m == [] then []
    else Kept(m[..|m| - 1]) + (if m[|m| - 1] then [|m| - 1] else [])
  }

  /** numpy's boolean indexing `b[m]`: the entries of `b` where `m` is true, in order. */
  function Filter(b: seq<bool>, m: seq<bool>): (r: seq<bool>)
    requires |b| == |m|
    ensures |r| <= |b|
    ensures (forall k :: 0 <= k < |m| ==> m[k]) ==> r == b
  {
    if b == [] then []
    else Filter(b[..|b| - 1], m[..|m| - 1]) + (if m[|m| - 1] then [b[|b| - 1]] else [])
  }

  /** The k-th entry kept by a mask is the entry at the k-th true position of the mask. */
  lemma {:induction false} FilterTakesKept(b: seq<bool>, m: seq<bool>)
    requires |b| == |m|
    ensures |Filter(b, m)| == |Kept(m)|
    ensures forall k :: 0 <= k < |Kept(m)| ==> Filter(b, m)[k] == b[Kept(m)[k]]
  {
    if b != [] {
      FilterTakesKept(b[..|b| - 1], m[..|m| - 1]);
    }
  }

  /** A mask that is true exactly below `n` outside the tombstones keeps the survivors. */
  lemma {:induction false} KeptIsSurvivors(m: seq<bool>, n: nat, removed: seq<int>)
    requires n <= |m|
    requires forall j :: 0 <= j < |m| ==> (m[j] <==> j < n && j !in removed)
    ensures Kept(m) == Survivors(n, removed)
    decreases |m|
  {
    if |m| > n {
      KeptIsSurvivors(m[..|m| - 1], n, removed);
    } else if n > 0 {
      KeptIsSurvivors(m[..n - 1], n - 1, removed);
    }
  }
}
